=== FILE: README.md ===
# PwnsianCartograph core, modelled in Dafny

PwnsianCartograph renders Minecraft worlds to images. This project models the two
parts of it that decide what a map looks like. Most operations are pure functions;
`getSize` and `saveNewJsonCache`, whose loops matter, are methods with loop
invariants. The project proves their properties.

- **Block colours** (`src/blocks.cpp`):
  - `BlockID` parsing, ordering and printing.
  - The similarity test `SimilarColorCompare`.
  - `computeColor`. It counts the opaque pixels of a texture in groups of similar
    colours and returns the most used group.
  - `BlockColors::load`. It walks the texture archive, takes each colour from the
    JSON cache when the cached CRC still matches, and computes it otherwise. The
    colours are added to the map the object already holds, which `load` never clears.
  - `saveNewJsonCache`, which writes the cache text.
  - `getBlockColor`.
- **Region world** (`src/AnvilFileWorld.cpp`):
  - `parseFilename` for region file names such as `r.1.0.mca`.
  - The constructor, which builds the map from region coordinate to region files out
    of a directory listing.
  - `getSize`.

## Modules, one per file

| file | module | models |
|---|---|---|
| `wrappers.dfy` | `Wrappers` | `Option` and `Result` |
| `cstrings.dfy` | `CStrings` | The C++ library calls the core relies on: `std::string::find` (with `npos` and the `npos + 1 == 0` wrap-around), `substr` (whose second argument is a length), `std::atoi`, and decimal printing by `operator<<` |
| `blockids.dfy` | `BlockIds` | `BlockID`: construction from a string, `operator<`, the conversion to `std::string` |
| `colors.dfy` | `Colors` | `SDL_Color`, `SimilarColorCompare`, and `SDL_MapRGBA` / `SDL_GetRGBA` for `SDL_PIXELFORMAT_RGBA8888` |
| `colorextraction.dfy` | `ColorExtraction` | `computeColor` on a decoded RGBA buffer |
| `colorstore.dfy` | `ColorStore` | The `std::map<BlockID, …>` `blockColors`, as an association list in strictly ascending key order |
| `cachefile.dfy` | `CacheFile` | The text `saveNewJsonCache` writes |
| `blockcolors.dfy` | `BlockColors` | `load` and `getBlockColor`, and what a second `load` does with the cache the first one wrote |
| `regionworld.dfy` | `RegionWorld` | `parseFilename`, the `RegionFileWorld` constructor, `getSize` |

Several inputs are parameters of the model:
- The zip archive is the list of its entries, each with its name, CRC-32 and decoded
  pixels.
- The cache file is the JSON tree it parses to. A missing or unparsable file is the
  empty tree.
- The region directory is the list of names `readdir` returns, or `None` when
  `opendir` fails.
- `error(...)` calls are the failure case of a `Result`.

## Model

| member | source | states |
|---|---|---|
| BlockIds.Parse | src/blocks.cpp:35-50 | The string constructor: `id` is `atoi` of the text before the first dash, and `meta` is `atoi` of `substr(dash + 1, dotpos)` when there is a dash and keeps its default otherwise. ParseToString, ParseWithoutDash, ParseMetaAfterDash and ParseNonNumericPrefix characterise it |
| BlockIds.Less | src/blocks.cpp:52-59 | `operator<`: ids first, meta only between equal ids. LessIsStrictTotalOrder characterises it |
| BlockIds.ToString | src/blocks.cpp:61-66 | The conversion to `std::string`: "<id>-<meta>", meta always written. ParseToString and ParseToStringNegative show what parsing it gives back |
| BlockIds.LessIsStrictTotalOrder | src/blocks.cpp:52-59 | `operator<` is irreflexive, asymmetric, transitive and total on (id, meta), and it is the lexicographic order |
| BlockIds.ParseToString | src/blocks.cpp:35-66 | Parsing the printed form of a block with a non-negative id gives the same block back |
| BlockIds.ParseToStringNegative | src/blocks.cpp:35-66 | A negative id does not survive the round trip: "-5-3" parses as id 0, since its first dash is taken as the separator, and the meta is the id's magnitude |
| BlockIds.ToStringInjective | src/blocks.cpp:61-66 | Distinct blocks print differently, negative ids included |
| BlockIds.ParseWithoutDash | src/blocks.cpp:38-49 | Without a dash, the id is `atoi` of the whole string and meta keeps its default |
| BlockIds.ParseNonNumericPrefix | src/blocks.cpp:45 | A name whose first character after leading blanks and one optional `+` is not a digit gets id 0; parsing never fails |
| BlockIds.ParseMetaAfterDash | src/blocks.cpp:38-49 | With no dot before the first dash, id and meta are `atoi` of the text before and after the dash |
| BlockIds.ParseDotBeforeDash | src/blocks.cpp:48 | The dot's index is used as a length: "1.-234" parses as meta 2 |
| Colors.Similar | src/blocks.cpp:14-21 | `SimilarColorCompare`: red, green and blue each differ by less than 20. The Similar* lemmas below state its properties |
| Colors.SimilarIsReflexive | src/blocks.cpp:14-21 | Every colour is similar to itself |
| Colors.SimilarIsSymmetric | src/blocks.cpp:14-21 | Similarity is symmetric |
| Colors.SimilarIgnoresAlpha | src/blocks.cpp:20 | Alpha takes no part in similarity |
| Colors.SimilarIsNotTransitive | src/blocks.cpp:14-21 | There are colours a ~ b ~ c with a not similar to c |
| Colors.SimilarIsNotAStrictOrdering | src/blocks.cpp:10-21 | The comparator is true of a colour with itself, and of two distinct colours both ways round, so it is not the strict weak ordering `std::map` requires |
| Colors.Pack | src/blocks.cpp:218 | The packed pixel carries red in its top byte and alpha in its bottom byte |
| Colors.Unpack | src/blocks.cpp:125-126 | `SDL_GetRGBA` on an RGBA8888 pixel: red from the top byte down to alpha in the bottom byte. UnpackPack and PackUnpack show it inverts Pack |
| Colors.UnpackPack | src/blocks.cpp:126 | Unpacking a packed colour gives the colour back |
| Colors.PackUnpack | src/blocks.cpp:125-126 | Packing an unpacked pixel gives the pixel back |
| ColorExtraction.OpaquePixels | src/blocks.cpp:167-176 | The pixels counted are all non-transparent, and there are at most a quarter as many as bytes |
| ColorExtraction.OpaquePixelsExactly | src/blocks.cpp:167-176 | Every opaque pixel at a 4-byte step of the buffer is counted, and every counted colour is such a pixel. OpaquePixelsInOrder fixes their order and multiplicity |
| ColorExtraction.OpaquePixelsCount | src/blocks.cpp:167-176 | As many pixels are counted as there are opaque pixels at the 4-byte steps of the buffer |
| ColorExtraction.OpaquePixelsInOrder | src/blocks.cpp:167-176 | The pixels are counted in buffer order, each once: there are as many as opaque offsets, and the opaque pixel at offset `o` is counted at the position equal to the number of opaque offsets before `o` |
| ColorExtraction.OpaquePixelAt | src/blocks.cpp:167-176 | The opaque pixel at offset `o` is counted, at the position given by its rank among the opaque offsets |
| ColorExtraction.OpaqueOffsetAt | src/blocks.cpp:167-176 | Conversely, each counted position `j` holds the pixel at the opaque offset with exactly `j` opaque offsets before it |
| ColorExtraction.FirstSimilar | src/blocks.cpp:174 | A pixel joins the first group whose representative is similar, and no earlier group is similar |
| ColorExtraction.AddPixel | src/blocks.cpp:173-175 | `colorCounts[c] += 1` under the first-fit grouping: the pixel joins the first similar group or opens a new one. AddPixelStep characterises it |
| ColorExtraction.AddPixelStep | src/blocks.cpp:173-175 | Counting a pixel keeps the existing groups and their representatives, sends the pixel to its first similar group or to a new one, and adds one to that group's count alone; a new group is the pixel with count 1, so the pixel is the map key it inserts |
| ColorExtraction.Bucketize | src/blocks.cpp:164-176 | The groups after counting the pixels in buffer order. BucketCounts, BucketRep, BucketsInFirstPixelOrder, BucketizeShape, BucketsCoverPixels and BucketCountsSum characterise them |
| ColorExtraction.BucketCounts | src/blocks.cpp:164-176 | Each group's count is the number of pixels whose first similar representative it is |
| ColorExtraction.BucketRep | src/blocks.cpp:164-176 | Each group's representative is the first pixel, in buffer order, that the group counts: the pixel whose `colorCounts[c]` created the entry |
| ColorExtraction.BucketsInFirstPixelOrder | src/blocks.cpp:164-180 | The groups come in the order of their first pixels: any pixel a later group counts is preceded by a pixel an earlier group counts, so `max_element`'s first most-used entry is, in the model, the most-used group seen first |
| ColorExtraction.FirstMax | src/blocks.cpp:178-180 | `max_element` picks a group no other outnumbers, the first such |
| ColorExtraction.ComputeColor | src/blocks.cpp:148-184 | The colour returned is an opaque pixel of the texture and is the representative of a most-used group |
| ColorExtraction.BucketCountsSum | src/blocks.cpp:164-176 | The group counts add up to the number of opaque pixels |
| ColorExtraction.AddPixelCounts | src/blocks.cpp:174 | Counting one pixel adds one to the total, whether it joins a group or opens one |
| ColorExtraction.BucketizeShape | src/blocks.cpp:160-176 | Each representative is a counted pixel, each group is non-empty, and no two representatives are similar |
| ColorExtraction.BucketsCoverPixels | src/blocks.cpp:160-176 | Every counted pixel is similar to some group's representative |
| ColorExtraction.ComputeColorOfUniform | src/blocks.cpp:148-184 | A one-pixel opaque texture is that pixel's colour |
| ColorStore.Lookup | src/blocks.cpp:238-242 | `find` on the map: the value stored under the key, or none. LookupFindsKeys characterises it |
| ColorStore.Insert | src/blocks.cpp:134 | `m[k] = v`: overwrites the value under `k`, or inserts `k` in key order. InsertSpec characterises it |
| ColorStore.LookupFindsKeys | src/blocks.cpp:238-239 | `find` succeeds exactly on the stored keys and returns the value stored with the key |
| ColorStore.InsertSpec | src/blocks.cpp:134 | `m[k] = v` keeps the keys ordered, adds exactly `k`, and changes only the lookup of `k`, to `v` |
| ColorStore.OrderedExtensional | src/blocks.cpp:134 | Two ordered maps with the same lookups are the same map |
| CStrings.FindFrom | src/AnvilFileWorld.cpp:70-72 | `std::string::find(c, from)`: an index at or after `from` holding `c`, or `npos`. FindFromFirst and FindFromCount show it is the first such index |
| CStrings.Substr | src/blocks.cpp:45-48 | `substr(pos, count)`: at most `count` characters from `pos`, with `npos` taking the rest; `count` is a length, not an end position |
| CStrings.Atoi | src/AnvilFileWorld.cpp:78-79 | `std::atoi`: leading white space, an optional sign and the longest run of digits; no number reads as 0. AtoiOfIntToString and AtoiStopsAt characterise it |
| CStrings.CutAt | src/blocks.cpp:116 | `name.substr(0, name.find('.'))` is the longest dot-free prefix: the whole name, or the text before its first dot |
| CStrings.AtoiOfIntToString | src/blocks.cpp:45-48 | `atoi` reads back any integer `operator<<` prints, whatever non-digit follows it |
| CStrings.NatToString | src/blocks.cpp:64 | `operator<<` on a non-negative number writes a non-empty run of decimal digits. DigitsValueOfNatToString and NatToStringNoLeadingZero characterise it |
| CStrings.DigitsValueOfNatToString | src/blocks.cpp:64 | The digits written read back as the number |
| CStrings.NatToStringNoLeadingZero | src/blocks.cpp:64 | No leading zero is written: the text starts with '0' exactly for 0 |
| CStrings.IntToString | src/blocks.cpp:64 | `operator<<` on an `int` or `unsigned`: the text starts with '-' exactly when the number is negative. AtoiOfIntToString shows `atoi` reads it back |
| CStrings.AtoiOfSubstrToDot | src/blocks.cpp:48 | `atoi` of `substr(start, d)`, where `d` indexes a dot, reads only the text up to the dot |
| CStrings.FindFromCount | src/AnvilFileWorld.cpp:70-72 | `find` succeeds exactly when the character occurs at or after the start, and one occurrence fewer remains past the index it returns |
| CacheFile.EntryText | src/blocks.cpp:212-221 | One member of the cache: the tab, the quoted printed key, and the CRC and packed colour. EntryTextHasNoNewline states a property of it |
| CacheFile.CacheText | src/blocks.cpp:209-231 | The whole cache: the members in key order, joined by ",\n", between "{\n" and "\n}". SaveNewJsonCache proves the writer loop produces it |
| CacheFile.SaveNewJsonCache | src/blocks.cpp:204-234 | Writing each member on its own line, with a comma after every member but the last, gives the members joined by ",\n" between "{\n" and "\n}" |
| CacheFile.EmptyCacheText | src/blocks.cpp:209-231 | An empty map writes "{\n}" |
| CacheFile.EntryTextHasNoNewline | src/blocks.cpp:221 | A member's text has no line break |
| CacheFile.CacheTextLineCount | src/blocks.cpp:209-231 | The file holds one line break per stored block plus the opening one |
| BlockColors.CacheKey | src/blocks.cpp:115-116 | The name cut at its first dot, the key the cache is looked up under. CutAt characterises it |
| BlockColors.EntryId | src/blocks.cpp:116-134 | The block `blockColors[name]` stores under, parsed from the cut name: a name without a dash is read whole as the id, with the default meta |
| BlockColors.EntryIdOfPrintedKey | src/blocks.cpp:116-134 | A cut name in printed form "<id>-<meta>", id not negative, names that very block |
| BlockColors.LoadEntries | src/blocks.cpp:109-135 | The loop over the archive, adding to the map the object held; the map stays in key order. LoadedKeys, LoadedLastWins and RecomputeIffMiss characterise it |
| BlockColors.IsHit | src/blocks.cpp:122-123 | The cache holds an object under the key whose "crc" equals the entry's CRC, an absent "crc" reading as 0 |
| BlockColors.EntryColor | src/blocks.cpp:122-131 | On a cache hit the colour packs back to the cached pixel; on a miss it is what `computeColor` returns, an opaque pixel of the texture that represents a most-used group |
| BlockColors.Load | src/blocks.cpp:83-141 | A missing archive fails. Otherwise the entries are added to the map the object already held, the map stays ordered, the cache text of the whole map is written exactly when something was recomputed, and recomputation happens exactly when some entry missed the cache |
| BlockColors.RecomputeIffMiss | src/blocks.cpp:105-131 | `hadToRecompute` is set exactly when some archive entry missed the cache |
| BlockColors.Replay | src/blocks.cpp:107-135 | The loop: each entry's block and value stored in turn into the map the object held, the flag starting false. The Replay* lemmas characterise it |
| BlockColors.ReplayRecomputeIffMiss | src/blocks.cpp:109-135 | The loop's flag is raised exactly when some step missed |
| BlockColors.ReplayKeys | src/blocks.cpp:109-135 | The loop leaves exactly the blocks the map held before and the blocks its steps name |
| BlockColors.ReplayLastWins | src/blocks.cpp:109-135 | Each block holds the value of the last step naming it |
| BlockColors.ReplayKeepsUnnamed | src/blocks.cpp:109-135 | A block no step names keeps whatever the map held for it before |
| BlockColors.LoadedKeys | src/blocks.cpp:109-135 | After `load` the map's keys are exactly the blocks it held before and the blocks the archive's entries name |
| BlockColors.LoadedLastWins | src/blocks.cpp:113-134 | A block holds the colour and CRC of the last archive entry naming it |
| BlockColors.GetBlockColor | src/blocks.cpp:236-243 | An unknown block is transparent; a known block gets its stored colour. The `unsigned` arguments are converted to `int` |
| BlockColors.ToInt | src/blocks.cpp:238 | The `int` an `unsigned` becomes in `BlockID(id, meta)`: the one 32-bit signed value congruent to it modulo 2^32 |
| BlockColors.GetBlockColorAfterLoad | src/blocks.cpp:236-243 | After `load`, `getBlockColor` answers the colour of the last entry naming the block |
| BlockColors.GetBlockColorOfUnknown | src/blocks.cpp:236-243 | For a block no entry names, `getBlockColor` after `load` answers what it answered before `load`, so transparent when no earlier `load` named it, as on a freshly constructed object |
| BlockColors.CacheTreeOfAt | src/blocks.cpp:212-221 | In the written cache, each block's printed key holds its CRC and packed colour |
| BlockColors.OrderedPrintsInjectively | src/blocks.cpp:210-221 | Every ordered map prints injectively: distinct stored blocks are written under distinct cache keys |
| BlockColors.ReloadEntry | src/blocks.cpp:122-127 | For archives whose entry names are in printed form and whose entries sharing a key share a CRC: on reload every entry hits the cache a fresh object's first load wrote, and unpacking its cached pixel gives the stored colour |
| BlockColors.ReloadIsClean | src/blocks.cpp:83-141 | For the same archives: loading again, into a fresh object, under the cache the first load wrote recomputes nothing and rebuilds the same map, so the cache is not rewritten |
| BlockColors.WrittenKeysHaveDash | src/blocks.cpp:212-221 | Every key of the cache the program writes holds a dash, the one between id and meta |
| BlockColors.UndashedNameAlwaysMisses | src/blocks.cpp:116-123 | An entry whose name has no dash before its first dot misses every cache the program writes, because every written key holds a dash |
| BlockColors.UndashedNameRewritesCache | src/blocks.cpp:137-140 | So `load` of an archive holding such an entry, under any cache the program wrote, writes the cache again |
| BlockColors.UndashedNameExample | src/blocks.cpp:41-45 | "404.png", the case the constructor's comment anticipates, is such a name: its key is "404" |
| RegionWorld.ParseFilename | src/AnvilFileWorld.cpp:62-84 | `parseFilename`: three `find` calls for dots, each from just past the previous one, and `atoi` of the two fields between them when all three succeed. ParseFilenameValidity and ParseFilenameValid characterise it |
| RegionWorld.DotSearches | src/AnvilFileWorld.cpp:70-72 | The chained `find('.')` calls: one result per call, and each index found holds a dot inside the name |
| RegionWorld.ParseFilenameValid | src/AnvilFileWorld.cpp:62-84 | With three dots, x and z are `atoi` of the text between the first and second dots and between the second and third |
| RegionWorld.ParseFilenameValidity | src/AnvilFileWorld.cpp:70-83 | A name is valid exactly when it holds at least three dots; an invalid name reads as (0, 0) |
| RegionWorld.ParseRegionFileName | src/AnvilFileWorld.cpp:62-84 | "r.<x>.<z>.mca" parses back to (x, z) for every integer x and z |
| RegionWorld.ParseFilenameExample | src/AnvilFileWorld.cpp:65 | "r.1.0.mca" parses to (1, 0) |
| RegionWorld.ParseFilenameNegativeExample | src/AnvilFileWorld.cpp:62-84 | "r.3.-2.mca" parses to (3, -2) |
| RegionWorld.ParseFilenameNoDots | src/AnvilFileWorld.cpp:74-83 | A name without dots is invalid and reads as (0, 0) |
| RegionWorld.AddRegionFile | src/AnvilFileWorld.cpp:26-31 | One loop step: a name that parses is appended to its coordinate's files. AddRegionFileKeys characterises it |
| RegionWorld.IndexRegions | src/AnvilFileWorld.cpp:24-32 | The loop over the listing. RegionMapKeys, RegionMapFiles and NamesAtEmpty characterise it |
| RegionWorld.AddRegionFileKeys | src/AnvilFileWorld.cpp:26-31 | One entry adds its coordinate to the map exactly when its name parses |
| RegionWorld.RegionMapKeys | src/AnvilFileWorld.cpp:24-32 | The map's keys are exactly the coordinates of the names that parse |
| RegionWorld.RegionMapFiles | src/AnvilFileWorld.cpp:24-32 | Each region is loaded from exactly the files naming its coordinate, in directory order |
| RegionWorld.NamesAtEmpty | src/AnvilFileWorld.cpp:29-31 | A coordinate no name parses to has no files |
| RegionWorld.OpenWorld | src/AnvilFileWorld.cpp:11-37 | An unreadable directory fails. Otherwise the keys are exactly the parsed coordinates, each with its files in order |
| RegionWorld.Extent | src/AnvilFileWorld.cpp:47-54 | The loop's accumulators hold 0 and every coordinate within them, and each bound is 0 or attained |
| RegionWorld.Widen | src/AnvilFileWorld.cpp:50-53 | One step of the loop: each minimum becomes the lesser, and each maximum the greater, of the old bound and the coordinate, and is one of the two |
| RegionWorld.SizeOf | src/AnvilFileWorld.cpp:59 | `32*16*(max+min)`: it equals the span `32*16*(max-min)` exactly when the minimum is 0, and is never more than the span while the minimum is at most 0, as the loop leaves it |
| RegionWorld.GetSize | src/AnvilFileWorld.cpp:44-60 | The size is 512 * (max + min) on each axis, for the extent of the map's coordinates in whatever order the loop visits them |
| RegionWorld.WidenExtent | src/AnvilFileWorld.cpp:50-53 | One loop step extends the extent by one coordinate |
| RegionWorld.ExtentIsUnique | src/AnvilFileWorld.cpp:47-54 | A set of coordinates has exactly one extent |
| RegionWorld.ExtentOrderIndependent | src/AnvilFileWorld.cpp:48-54 | The extent does not depend on visiting order or repetition |
| RegionWorld.SizeOfNoRegions | src/AnvilFileWorld.cpp:47-59 | No regions gives size (0, 0) |
| RegionWorld.SizeOfTwoRegions | src/AnvilFileWorld.cpp:59 | Regions (0,0) and (2,3) give size (1024, 1536) |
| RegionWorld.SizeOfSymmetricRegions | src/AnvilFileWorld.cpp:59 | Regions (-1,0) and (1,0) give width 0: the result is a sum of the bounds, not a span |

## Left out

- Zip access (`ZipFile::Open`, `GetEntry`, `readZipEntry`), PNG decoding (lodepng), JSON parsing (json11), file reading and writing, and `opendir`/`readdir` are I/O. They become parameters: entry lists with decoded pixels, a parsed JSON tree, the text written, and a listing.
- CacheFile.SaveNewJsonCache: when the cache file cannot be opened, the source writes nothing. The model has no file: the `written` text of BlockColors.Load is the text that would be written.
- JSON numbers are doubles in json11. The model reads "crc" and "color" as integers, so fractional values and the double-to-`Uint32` conversion are not modelled.
- `rgb2hsv` (floating point) and `BlockColors::pixelFormat` are not part of this model.
- `BlockColors::isLoaded` calls itself without end. It has no result to model.
- `error` and `log` are reduced to the failure case of a `Result`. The log message for an unreadable cache is dropped.
- BlockColors.Load: an archive that opens but whose entries cannot be read is not modelled.
- Integers are unbounded. `atoi` overflow and `int` overflow of `32*16*(max+min)` in `getSize` are not modelled. The `unsigned`-to-`int` conversion in `getBlockColor` is modelled.
- ColorExtraction.ComputeColor: requires a whole number of RGBA pixels and at least one opaque pixel. On a texture with no opaque pixel the source dereferences `end()` of an empty map, which is undefined. The grouping by a comparator that is not a strict weak ordering is also undefined in C++; the model fixes it as first-fit groups, kept in the order of their first pixels (see Findings). That order, not a colour order, decides which of two equally used groups wins.
- The default `meta` of a `BlockID` whose name has no dash is set in a header that is not part of this model. It is a parameter, `defaultMeta`.
- `RegionFileWorld::Region::load` (reading a region file) is not part of this model. A region is represented by the names of the files loaded into it.
- The order in which `readdir` lists names is unspecified, so the model takes any listing. A `std::map` visits the keys in `getSize` in ascending (x, z) order. `GetSize` may visit them in any order, which includes that one. ExtentIsUnique and ExtentOrderIndependent show the order makes no difference.
- BlockColors.ReloadIsClean: holds only when both loads run on a freshly constructed object, the archive's entry names are in printed form ("405-3.png"), and entries sharing a key share a CRC. A name not in printed form is written back under a different key. For a name without a dash such as "404.png", the entry misses on every load and the cache is rewritten every time; BlockColors.UndashedNameAlwaysMisses states this. Entries sharing a key with different CRCs overwrite each other's CRC.
- BlockColors.ReloadEntry: has the same conditions as BlockColors.ReloadIsClean: printed-form names, a shared CRC for a shared key, and a fresh object.
- BlockColors.CacheTreeOf: the cache written from a map is taken to parse back to this tree, each printed key holding an object with the block's CRC and packed colour. json11's parser is not part of this model, so no lemma connects it to CacheFile.CacheText.

## Findings

| source | as written | input that shows it | evidently intended | confidence | as-written member | corrected member |
|---|---|---|---|---|---|---|
| src/blocks.cpp:14-21, 164 | `SimilarColorCompare` is the ordering of a `std::map`, but it is true of every colour with itself, and it relates distinct similar colours both ways round | any colour `c`: `comp(c, c)` is true | Similar pixels are grouped and counted, and the most used group's colour is returned | not executed | Colors.SimilarIsNotAStrictOrdering | ColorExtraction.ComputeColor |

=== FILE: blockcolors.dfy ===
/**
 * `BlockColors::load` and `BlockColors::getBlockColor`: every texture of the
 * archive gets a colour, recalled from the JSON cache when the CRC it was cached
 * with still matches and computed from the pixels otherwise; the cache file is
 * rewritten only when something had to be computed.
 *
 * The archive is given as its list of entries with their CRC-32 and decoded
 * pixels, the cache file as the JSON tree it parses to (a missing or unreadable
 * file is the empty tree, under which every entry misses), and the rewritten
 * cache file as the text that would be written. `load` adds to the map the object
 * already holds, which is empty only on a freshly constructed object.
 */
module BlockColors {
  import opened Wrappers
  import opened CStrings
  import opened Colors
  import opened BlockIds
  import opened ColorExtraction
  import opened ColorStore
  import opened CacheFile

  /** One archive entry: file name, CRC-32, and the RGBA pixels its PNG decodes to. */
  datatype ArchiveEntry = ArchiveEntry(name: string, crc: uint32, pixels: seq<byte>)

  /**
   * The cache tree's value under a block key: an object whose "crc" and "color"
   * members may be absent, or any other JSON value.
   */
  datatype CachedValue = CachedObject(crc: Option<int>, color: Option<uint32>) | NotAnObject

  type CacheTree = map<string, CachedValue>

  /** `Json::number_value`: an absent or non-numeric member reads as 0. */
  function NumberValue<N>(member: Option<N>, zero: N): N {
    match member
    case Some(n) => n
    case None => zero
  }

  /** The cache key of an entry: its name cut at the first `.` ("405-3.png" gives "405-3"). */
  function CacheKey(e: ArchiveEntry): string {
    CutAt(e.name, '.')
  }

  /**
   * The block an entry describes, parsed from its cache key: a key without a dash
   * is read whole as the id, with the default meta.
   */
  function EntryId(e: ArchiveEntry, defaultMeta: int): (b: BlockID)
    ensures '-' !in CacheKey(e) ==> b == BlockID(Atoi(CacheKey(e)), defaultMeta)
  {
    if '-' !in CacheKey(e) then
      ParseWithoutDash(CacheKey(e), defaultMeta);
      Parse(CacheKey(e), defaultMeta)
    else Parse(CacheKey(e), defaultMeta)
  }

  /** An entry whose key is the printed form of a block with a non-negative id names that block. */
  lemma EntryIdOfPrintedKey(e: ArchiveEntry, defaultMeta: int, a: BlockID)
    requires a.id >= 0 && CacheKey(e) == ToString(a)
    ensures EntryId(e, defaultMeta) == a
  {
    ParseToString(a, defaultMeta);
  }

  /** The cache holds an object for the entry's key whose "crc" equals the entry's CRC. */
  predicate IsHit(cache: CacheTree, e: ArchiveEntry) {
    var key := CacheKey(e);
    key in cache && cache[key].CachedObject? && NumberValue(cache[key].crc, 0) == e.crc
  }

  /** A miss recomputes the colour, which needs a whole-pixel buffer with an opaque pixel. */
  predicate Computable(cache: CacheTree, e: ArchiveEntry) {
    IsHit(cache, e) || (|e.pixels| % 4 == 0 && OpaquePixels(e.pixels) != [])
  }

  predicate AllComputable(cache: CacheTree, es: seq<ArchiveEntry>) {
    forall i :: 0 <= i < |es| ==> Computable(cache, es[i])
  }

  /** The entry's colour: the cached pixel, unpacked, on a hit; `computeColor` on a miss. */
  function EntryColor(cache: CacheTree, e: ArchiveEntry): (c: Color)
    requires Computable(cache, e)
    ensures IsHit(cache, e) ==> Pack(c) == NumberValue(cache[CacheKey(e)].color, 0)
    ensures !IsHit(cache, e) ==> c.a != AlphaTransparent && c in OpaquePixels(e.pixels)
    ensures !IsHit(cache, e) ==> IsModeOf(Bucketize(OpaquePixels(e.pixels)), c)
  {
    if IsHit(cache, e) then
      var pixel := NumberValue(cache[CacheKey(e)].color, 0);
      PackUnpack(pixel);
      Unpack(pixel)
    else ComputeColor(e.pixels)
  }

  lemma AllComputablePrefix(cache: CacheTree, es: seq<ArchiveEntry>, n: nat)
    requires AllComputable(cache, es) && n <= |es|
    ensures AllComputable(cache, es[..n])
  {
    forall i | 0 <= i < n ensures Computable(cache, es[..n][i]) {
      assert es[..n][i] == es[i];
    }
  }

  /** What the loop body of `load` settles for one entry: the block, its value, and whether it hit. */
  datatype Resolved = Resolved(id: BlockID, value: ColorEntry, hit: bool)

  function Resolve(cache: CacheTree, defaultMeta: int, e: ArchiveEntry): Resolved
    requires Computable(cache, e)
  {
    Resolved(EntryId(e, defaultMeta), ColorEntry(EntryColor(cache, e), e.crc), IsHit(cache, e))
  }

  /** The entries resolved one by one, in archive order. */
  function ResolveAll(cache: CacheTree, defaultMeta: int, es: seq<ArchiveEntry>): (rs: seq<Resolved>)
    requires AllComputable(cache, es)
    ensures |rs| == |es|
  {
    seq(|es|, i requires 0 <= i < |es| => Resolve(cache, defaultMeta, es[i]))
  }

  lemma ResolveAllAt(cache: CacheTree, defaultMeta: int, es: seq<ArchiveEntry>, i: nat)
    requires AllComputable(cache, es) && i < |es|
    ensures ResolveAll(cache, defaultMeta, es)[i] == Resolve(cache, defaultMeta, es[i])
  {
  }

  /** The colour map and the `hadToRecompute` flag while the archive is scanned. */
  datatype LoadState = LoadState(colors: Store, hadToRecompute: bool)

  /** `blockColors[name] = {color, zipcrc}`, and the flag raised on a miss. */
  function Apply(st: LoadState, r: Resolved): LoadState {
    LoadState(Insert(st.colors, r.id, r.value), st.hadToRecompute || !r.hit)
  }

  /**
   * The loop of `load`: the resolved entries applied in order to the map the object
   * already holds (`load` never clears `blockColors`; a freshly constructed object
   * holds the empty map), with the local flag starting false.
   */
  function Replay(prior: Store, rs: seq<Resolved>): (st: LoadState)
    requires Ordered(prior)
    ensures Ordered(st.colors)
  {
    if rs == [] then LoadState(prior, false)
    else
      var prev := Replay(prior, rs[..|rs| - 1]);
      var last := rs[|rs| - 1];
      InsertSpec(prev.colors, last.id, last.value);
      Apply(prev, last)
  }

  function LoadEntries(prior: Store, cache: CacheTree, defaultMeta: int, es: seq<ArchiveEntry>): (st: LoadState)
    requires Ordered(prior) && AllComputable(cache, es)
    ensures Ordered(st.colors)
  {
    Replay(prior, ResolveAll(cache, defaultMeta, es))
  }

  /** What `load` leaves behind: the colour map, the flag, and the cache text written, if any. */
  datatype Loaded = Loaded(colors: Store, hadToRecompute: bool, written: Option<string>)

  datatype LoadError = ArchiveNotFound

  /**
   * `BlockColors::load` on an object whose map is `prior`. An archive that cannot
   * be opened is the failure `error` reports; otherwise the entries are scanned
   * into the map and the cache text, of the whole map, is produced exactly when an
   * entry had to be recomputed.
   */
  function Load(prior: Store, archive: Option<seq<ArchiveEntry>>, cache: CacheTree, defaultMeta: int)
    : (r: Result<Loaded, LoadError>)
    requires Ordered(prior)
    requires archive.Some? ==> AllComputable(cache, archive.value)
    ensures archive.None? <==> r.Failure?
    ensures r.Success? ==> Ordered(r.value.colors)
    ensures r.Success? ==> (r.value.written.Some? <==> r.value.hadToRecompute)
    ensures r.Success? && r.value.written.Some? ==> r.value.written.value == CacheText(r.value.colors)
    ensures r.Success? ==>
      (r.value.hadToRecompute <==> exists i :: 0 <= i < |archive.value| && !IsHit(cache, archive.value[i]))
  {
    match archive
    case None => Failure(ArchiveNotFound)
    case Some(es) =>
      var st := LoadEntries(prior, cache, defaultMeta, es);
      RecomputeIffMiss(prior, cache, defaultMeta, es);
      Success(Loaded(st.colors, st.hadToRecompute, if st.hadToRecompute then Some(CacheText(st.colors)) else None))
  }

  /** The `int` an `unsigned` argument becomes when passed to `BlockID(int, int)`. */
  function ToInt(u: uint32): (r: int)
    ensures -0x8000_0000 <= r < 0x8000_0000
    ensures (r - u) % 0x1_0000_0000 == 0
  {
    if u < 0x8000_0000 then u else u - 0x1_0000_0000
  }

  /** `getBlockColor`: the stored colour of the block, or transparent when it is unknown. */
  function GetBlockColor(m: Store, id: uint32, meta: uint32): (c: Color)
    requires Ordered(m)
    ensures BlockID(ToInt(id), ToInt(meta)) !in Keys(m) ==> c == Transparent
    ensures forall i :: 0 <= i < |m| && m[i].0 == BlockID(ToInt(id), ToInt(meta)) ==> c == m[i].1.color
  {
    var k := BlockID(ToInt(id), ToInt(meta));
    LookupFindsKeys(m, k);
    forall i | 0 <= i < |m| && m[i].0 == k ensures k in Keys(m) {
      EntryKeyInKeys(m, i);
    }
    assert forall i, j :: 0 <= i < |m| && 0 <= j < |m| && m[i].0 == m[j].0 ==> i == j by {
      forall i, j | 0 <= i < |m| && 0 <= j < |m| && m[i].0 == m[j].0 ensures i == j {
        if i < j || j < i {
          LessIsStrictTotalOrder(m[i].0, m[j].0, m[i].0);
        }
      }
    }
    match Lookup(m, k)
    case Some(v) => v.color
    case None => Transparent
  }

  // ---------------------------------------------------------------- load lemmas

  /** The flag is raised exactly when some entry missed. */
  lemma {:induction false} ReplayRecomputeIffMiss(prior: Store, rs: seq<Resolved>)
    requires Ordered(prior)
    ensures Replay(prior, rs).hadToRecompute <==> exists i :: 0 <= i < |rs| && !rs[i].hit
  {
    if rs != [] {
      var init := rs[..|rs| - 1];
      ReplayRecomputeIffMiss(prior, init);
      assert forall i :: 0 <= i < |init| ==> init[i] == rs[i];
    }
  }

  /** No later entry names the same block as entry `i`. */
  predicate IsLast(rs: seq<Resolved>, i: nat)
    requires i < |rs|
  {
    forall j :: i < j < |rs| ==> rs[j].id != rs[i].id
  }

  /** The map holds exactly the blocks it held before and the blocks named. */
  lemma {:induction false} ReplayKeys(prior: Store, rs: seq<Resolved>)
    requires Ordered(prior)
    ensures forall k :: k in Keys(Replay(prior, rs).colors) <==>
      k in Keys(prior) || exists i :: 0 <= i < |rs| && rs[i].id == k
  {
    if rs != [] {
      var n := |rs| - 1;
      var init := rs[..n];
      var prev := Replay(prior, init).colors;
      ReplayKeys(prior, init);
      InsertSpec(prev, rs[n].id, rs[n].value);
      assert Keys(Replay(prior, rs).colors) == Keys(prev) + {rs[n].id};
      forall k ensures k in Keys(Replay(prior, rs).colors) <==>
        k in Keys(prior) || exists i :: 0 <= i < |rs| && rs[i].id == k
      {
        if k in Keys(prev) && k !in Keys(prior) {
          var i :| 0 <= i < n && init[i].id == k;
          assert rs[i].id == k;
        }
        if exists i :: 0 <= i < |rs| && rs[i].id == k {
          var i :| 0 <= i < |rs| && rs[i].id == k;
          if i < n {
            assert init[i].id == k;
          }
        }
      }
    }
  }

  /** Each block named holds the value of the last entry naming it. */
  lemma {:induction false} ReplayLastWins(prior: Store, rs: seq<Resolved>, i: nat)
    requires Ordered(prior)
    requires i < |rs| && IsLast(rs, i)
    ensures Lookup(Replay(prior, rs).colors, rs[i].id) == Some(rs[i].value)
  {
    var n := |rs| - 1;
    var init := rs[..n];
    var prev := Replay(prior, init).colors;
    InsertSpec(prev, rs[n].id, rs[n].value);
    if i < n {
      assert init[i] == rs[i];
      assert IsLast(init, i) by {
        forall j | i < j < |init| ensures init[j].id != init[i].id {
          assert init[j] == rs[j];
        }
      }
      ReplayLastWins(prior, init, i);
    }
  }

  /** A block no step names keeps whatever the map held for it before. */
  lemma {:induction false} ReplayKeepsUnnamed(prior: Store, rs: seq<Resolved>, k: BlockID)
    requires Ordered(prior)
    requires forall i :: 0 <= i < |rs| ==> rs[i].id != k
    ensures Lookup(Replay(prior, rs).colors, k) == Lookup(prior, k)
  {
    if rs != [] {
      var n := |rs| - 1;
      var init := rs[..n];
      assert forall i :: 0 <= i < |init| ==> init[i] == rs[i];
      ReplayKeepsUnnamed(prior, init, k);
      InsertSpec(Replay(prior, init).colors, rs[n].id, rs[n].value);
    }
  }

  /** A block named by some entry has a last entry naming it. */
  lemma LastExists(rs: seq<Resolved>, i: nat) returns (last: nat)
    requires i < |rs|
    ensures i <= last < |rs| && rs[last].id == rs[i].id && IsLast(rs, last)
    decreases |rs| - i
  {
    if exists j :: i < j < |rs| && rs[j].id == rs[i].id {
      var j :| i < j < |rs| && rs[j].id == rs[i].id;
      last := LastExists(rs, j);
    } else {
      last := i;
    }
  }

  /** `hadToRecompute` is set exactly when some archive entry missed the cache. */
  lemma RecomputeIffMiss(prior: Store, cache: CacheTree, defaultMeta: int, es: seq<ArchiveEntry>)
    requires Ordered(prior) && AllComputable(cache, es)
    ensures LoadEntries(prior, cache, defaultMeta, es).hadToRecompute <==>
      exists i :: 0 <= i < |es| && !IsHit(cache, es[i])
  {
    var rs := ResolveAll(cache, defaultMeta, es);
    ReplayRecomputeIffMiss(prior, rs);
    forall i | 0 <= i < |es| ensures rs[i].hit == IsHit(cache, es[i]) {
      ResolveAllAt(cache, defaultMeta, es, i);
    }
  }

  /** No later archive entry names the same block as entry `i`. */
  predicate IsLastFor(es: seq<ArchiveEntry>, defaultMeta: int, i: nat)
    requires i < |es|
  {
    forall j :: i < j < |es| ==> EntryId(es[j], defaultMeta) != EntryId(es[i], defaultMeta)
  }

  /**
   * After `load` the map's keys are exactly the blocks it held before and the blocks
   * the archive entries name.
   */
  lemma LoadedKeys(prior: Store, cache: CacheTree, defaultMeta: int, es: seq<ArchiveEntry>)
    requires Ordered(prior) && AllComputable(cache, es)
    ensures forall k :: k in Keys(LoadEntries(prior, cache, defaultMeta, es).colors) <==>
      k in Keys(prior) || exists i :: 0 <= i < |es| && EntryId(es[i], defaultMeta) == k
  {
    var rs := ResolveAll(cache, defaultMeta, es);
    ReplayKeys(prior, rs);
    forall i | 0 <= i < |es| ensures rs[i].id == EntryId(es[i], defaultMeta) {
      ResolveAllAt(cache, defaultMeta, es, i);
    }
  }

  /** On a freshly constructed object the map's keys are exactly the blocks the entries name. */
  lemma FreshLoadedKeys(cache: CacheTree, defaultMeta: int, es: seq<ArchiveEntry>)
    requires AllComputable(cache, es)
    ensures forall k :: k in Keys(LoadEntries([], cache, defaultMeta, es).colors) <==>
      exists i :: 0 <= i < |es| && EntryId(es[i], defaultMeta) == k
  {
    LoadedKeys([], cache, defaultMeta, es);
    assert Keys([]) == {};
  }

  /**
   * After `load` a block holds the colour and CRC of the last entry naming it: a
   * later entry for the same block overwrites an earlier one.
   */
  lemma LoadedLastWins(prior: Store, cache: CacheTree, defaultMeta: int, es: seq<ArchiveEntry>, i: nat)
    requires Ordered(prior) && AllComputable(cache, es)
    requires i < |es| && IsLastFor(es, defaultMeta, i)
    ensures Lookup(LoadEntries(prior, cache, defaultMeta, es).colors, EntryId(es[i], defaultMeta))
      == Some(ColorEntry(EntryColor(cache, es[i]), es[i].crc))
  {
    var rs := ResolveAll(cache, defaultMeta, es);
    forall j | 0 <= j < |es| ensures rs[j].id == EntryId(es[j], defaultMeta) {
      ResolveAllAt(cache, defaultMeta, es, j);
    }
    ResolveAllAt(cache, defaultMeta, es, i);
    ReplayLastWins(prior, rs, i);
  }

  /** An archive entry naming a block has a last entry naming it. */
  lemma LastEntryExists(cache: CacheTree, defaultMeta: int, es: seq<ArchiveEntry>, i: nat) returns (last: nat)
    requires AllComputable(cache, es)
    requires i < |es|
    ensures i <= last < |es| && EntryId(es[last], defaultMeta) == EntryId(es[i], defaultMeta)
    ensures IsLastFor(es, defaultMeta, last)
  {
    var rs := ResolveAll(cache, defaultMeta, es);
    forall j | 0 <= j < |es| ensures rs[j].id == EntryId(es[j], defaultMeta) {
      ResolveAllAt(cache, defaultMeta, es, j);
    }
    last := LastExists(rs, i);
  }

  /** `getBlockColor` after `load` answers the colour of the last entry naming the block. */
  lemma GetBlockColorAfterLoad(prior: Store, cache: CacheTree, defaultMeta: int, es: seq<ArchiveEntry>,
                               i: nat, id: uint32, meta: uint32)
    requires Ordered(prior) && AllComputable(cache, es)
    requires i < |es| && IsLastFor(es, defaultMeta, i)
    requires EntryId(es[i], defaultMeta) == BlockID(ToInt(id), ToInt(meta))
    ensures GetBlockColor(LoadEntries(prior, cache, defaultMeta, es).colors, id, meta) == EntryColor(cache, es[i])
  {
    var m := LoadEntries(prior, cache, defaultMeta, es).colors;
    var k := BlockID(ToInt(id), ToInt(meta));
    LoadedLastWins(prior, cache, defaultMeta, es, i);
    LookupFindsKeys(m, k);
  }

  /**
   * For a block no archive entry names, `getBlockColor` after `load` answers what it
   * answered before: the colour an earlier `load` stored, or transparent when no
   * earlier `load` named it either (always so on a freshly constructed object).
   */
  lemma GetBlockColorOfUnknown(prior: Store, cache: CacheTree, defaultMeta: int, es: seq<ArchiveEntry>,
                               id: uint32, meta: uint32)
    requires Ordered(prior) && AllComputable(cache, es)
    requires forall i :: 0 <= i < |es| ==> EntryId(es[i], defaultMeta) != BlockID(ToInt(id), ToInt(meta))
    ensures GetBlockColor(LoadEntries(prior, cache, defaultMeta, es).colors, id, meta) == GetBlockColor(prior, id, meta)
    ensures BlockID(ToInt(id), ToInt(meta)) !in Keys(prior) ==>
      GetBlockColor(LoadEntries(prior, cache, defaultMeta, es).colors, id, meta) == Transparent
  {
    var k := BlockID(ToInt(id), ToInt(meta));
    var rs := ResolveAll(cache, defaultMeta, es);
    forall i | 0 <= i < |es| ensures rs[i].id != k {
      ResolveAllAt(cache, defaultMeta, es, i);
    }
    ReplayKeepsUnnamed(prior, rs, k);
    var after := LoadEntries(prior, cache, defaultMeta, es).colors;
    LookupFindsKeys(after, k);
    LookupFindsKeys(prior, k);
  }

  // ---------------------------------------------------------------- reload

  /** The JSON tree the cache text of `m` stands for: each key's object with its CRC and packed colour. */
  function CacheTreeOf(m: Store): CacheTree {
    if m == [] then map[]
    else
      var last := m[|m| - 1];
      CacheTreeOf(m[..|m| - 1])[ToString(last.0) := CachedObject(Some(last.1.crc), Some(Pack(last.1.color)))]
  }

  /** Distinct blocks of `m` print to distinct keys. */
  predicate PrintsInjectively(m: Store) {
    forall i, j :: 0 <= i < |m| && 0 <= j < |m| && ToString(m[i].0) == ToString(m[j].0) ==> i == j
  }

  lemma PrintsInjectivelyPrefix(m: Store, n: nat)
    requires PrintsInjectively(m) && n <= |m|
    ensures PrintsInjectively(m[..n])
  {
    var init := m[..n];
    forall a, b | 0 <= a < |init| && 0 <= b < |init| && ToString(init[a].0) == ToString(init[b].0)
      ensures a == b
    {
      assert init[a] == m[a] && init[b] == m[b];
    }
  }

  /** In the tree written from `m`, each block's printed key holds that block's CRC and packed colour. */
  lemma {:induction false} CacheTreeOfAt(m: Store, i: nat)
    requires PrintsInjectively(m) && i < |m|
    ensures ToString(m[i].0) in CacheTreeOf(m)
    ensures CacheTreeOf(m)[ToString(m[i].0)] == CachedObject(Some(m[i].1.crc), Some(Pack(m[i].1.color)))
  {
    var n := |m| - 1;
    if i < n {
      var init := m[..n];
      PrintsInjectivelyPrefix(m, n);
      assert init[i] == m[i];
      CacheTreeOfAt(init, i);
      var key := ToString(m[i].0);
      assert ToString(m[n].0) != key;
      var t := CacheTreeOf(init);
      assert CacheTreeOf(m) == t[ToString(m[n].0) := CachedObject(Some(m[n].1.crc), Some(Pack(m[n].1.color)))];
      assert key in t;
    }
  }

  /**
   * Every map the program can hold prints injectively: its keys are distinct, and
   * distinct blocks print to distinct keys. So the written cache has one member per
   * stored block, whatever the archive's names look like.
   */
  lemma OrderedPrintsInjectively(m: Store)
    requires Ordered(m)
    ensures PrintsInjectively(m)
  {
    forall i, j | 0 <= i < |m| && 0 <= j < |m| && ToString(m[i].0) == ToString(m[j].0)
      ensures i == j
    {
      ToStringInjective(m[i].0, m[j].0);
      LessIsStrictTotalOrder(m[i].0, m[j].0, m[j].0);
    }
  }

  /** Names already in printed form: "405-3.png", not "0405-3.png" or "405.png". */
  predicate NamesInPrintedForm(es: seq<ArchiveEntry>, defaultMeta: int) {
    forall i :: 0 <= i < |es| ==> ToString(EntryId(es[i], defaultMeta)) == CacheKey(es[i])
  }

  /** Entries sharing a cache key share a CRC. */
  predicate SameKeySameCrc(es: seq<ArchiveEntry>) {
    forall i, j :: 0 <= i < j < |es| && CacheKey(es[i]) == CacheKey(es[j]) ==> es[i].crc == es[j].crc
  }

  /**
   * The value the first load stored for entry `i`'s block, and the object the
   * rewritten cache holds under the entry's key: that value's CRC and packed colour.
   */
  lemma ReloadTreeEntry(cache: CacheTree, defaultMeta: int, es: seq<ArchiveEntry>, i: nat) returns (value: ColorEntry)
    requires AllComputable(cache, es)
    requires NamesInPrintedForm(es, defaultMeta) && SameKeySameCrc(es)
    requires i < |es|
    ensures var first := LoadEntries([], cache, defaultMeta, es).colors;
      && Lookup(first, EntryId(es[i], defaultMeta)) == Some(value)
      && CacheKey(es[i]) in CacheTreeOf(first)
      && CacheTreeOf(first)[CacheKey(es[i])] == CachedObject(Some(value.crc), Some(Pack(value.color)))
    ensures value.crc == es[i].crc
  {
    var first := LoadEntries([], cache, defaultMeta, es).colors;
    var k := EntryId(es[i], defaultMeta);
    var last := LastEntryExists(cache, defaultMeta, es, i);
    value := ColorEntry(EntryColor(cache, es[last]), es[last].crc);
    LoadedLastWins([], cache, defaultMeta, es, last);
    LookupFindsKeys(first, k);
    var j :| 0 <= j < |first| && first[j] == (k, value);
    OrderedPrintsInjectively(first);
    CacheTreeOfAt(first, j);
    assert CacheKey(es[i]) == CacheKey(es[last]);
  }

  /**
   * Under the tree the first load wrote, entry `i` hits, and recalls the colour the
   * first load stored for its block.
   */
  lemma ReloadEntry(cache: CacheTree, defaultMeta: int, es: seq<ArchiveEntry>, i: nat)
    requires AllComputable(cache, es)
    requires NamesInPrintedForm(es, defaultMeta) && SameKeySameCrc(es)
    requires i < |es|
    ensures var first := LoadEntries([], cache, defaultMeta, es).colors;
      && IsHit(CacheTreeOf(first), es[i])
      && Lookup(first, EntryId(es[i], defaultMeta))
         == Some(ColorEntry(EntryColor(CacheTreeOf(first), es[i]), es[i].crc))
  {
    var first := LoadEntries([], cache, defaultMeta, es).colors;
    var tree := CacheTreeOf(first);
    var value := ReloadTreeEntry(cache, defaultMeta, es, i);
    assert IsHit(tree, es[i]);
    UnpackPack(value.color);
    assert EntryColor(tree, es[i]) == Unpack(Pack(value.color));
  }

  /**
   * Loading the same archive again under the cache the first load wrote recomputes
   * nothing and rebuilds the same map, so the cache is not rewritten. Both loads run
   * on a freshly constructed object, as two runs of the program do. This holds when
   * every entry name is already in printed form and entries sharing a name share a CRC.
   */
  lemma ReloadIsClean(cache: CacheTree, defaultMeta: int, es: seq<ArchiveEntry>)
    requires AllComputable(cache, es)
    requires NamesInPrintedForm(es, defaultMeta) && SameKeySameCrc(es)
    ensures var first := LoadEntries([], cache, defaultMeta, es).colors;
      forall i :: 0 <= i < |es| ==> IsHit(CacheTreeOf(first), es[i])
    ensures var first := LoadEntries([], cache, defaultMeta, es).colors;
      Load([], Some(es), CacheTreeOf(first), defaultMeta) == Success(Loaded(first, false, None))
  {
    var first := LoadEntries([], cache, defaultMeta, es).colors;
    var tree := CacheTreeOf(first);
    forall i | 0 <= i < |es| ensures IsHit(tree, es[i]) {
      ReloadEntry(cache, defaultMeta, es, i);
    }
    assert AllComputable(tree, es);
    var second := LoadEntries([], tree, defaultMeta, es);
    RecomputeIffMiss([], tree, defaultMeta, es);
    forall k ensures Lookup(second.colors, k) == Lookup(first, k) {
      ReloadLookup(cache, defaultMeta, es, k);
    }
    OrderedExtensional(second.colors, first);
  }

  /** The second load finds, under every key, what the first load stored. */
  lemma ReloadLookup(cache: CacheTree, defaultMeta: int, es: seq<ArchiveEntry>, k: BlockID)
    requires AllComputable(cache, es)
    requires NamesInPrintedForm(es, defaultMeta) && SameKeySameCrc(es)
    requires AllComputable(CacheTreeOf(LoadEntries([], cache, defaultMeta, es).colors), es)
    ensures var first := LoadEntries([], cache, defaultMeta, es).colors;
      Lookup(LoadEntries([], CacheTreeOf(first), defaultMeta, es).colors, k) == Lookup(first, k)
  {
    var first := LoadEntries([], cache, defaultMeta, es).colors;
    var tree := CacheTreeOf(first);
    var second := LoadEntries([], tree, defaultMeta, es);
    FreshLoadedKeys(cache, defaultMeta, es);
    FreshLoadedKeys(tree, defaultMeta, es);
    LookupFindsKeys(first, k);
    LookupFindsKeys(second.colors, k);
    if k in Keys(first) {
      var i :| 0 <= i < |es| && EntryId(es[i], defaultMeta) == k;
      var last := LastEntryExists(cache, defaultMeta, es, i);
      ReloadEntry(cache, defaultMeta, es, last);
      LoadedLastWins([], tree, defaultMeta, es, last);
    }
  }

  // ---------------------------------------------------------------- names without a dash

  /** Every key of a cache tree the program writes holds a `-`, the one between id and meta. */
  lemma {:induction false} WrittenKeysHaveDash(m: Store)
    ensures forall key :: key in CacheTreeOf(m) ==> '-' in key
  {
    if m != [] {
      WrittenKeysHaveDash(m[..|m| - 1]);
      var b := m[|m| - 1].0;
      assert ToString(b)[|IntToString(b.id)|] == '-';
    }
  }

  /**
   * An entry whose name has no `-` before its first `.` ("404.png", whose key is
   * "404") is looked up under a key the written cache never holds, since the map
   * writes the block back as "404-<meta>": it misses every cache the program wrote.
   */
  lemma UndashedNameAlwaysMisses(m: Store, e: ArchiveEntry)
    requires '-' !in CacheKey(e)
    ensures !IsHit(CacheTreeOf(m), e)
  {
    WrittenKeysHaveDash(m);
  }

  /** So an archive holding such an entry has the cache rewritten by every `load`. */
  lemma UndashedNameRewritesCache(prior: Store, m: Store, es: seq<ArchiveEntry>, defaultMeta: int, i: nat)
    requires Ordered(prior) && AllComputable(CacheTreeOf(m), es)
    requires i < |es| && '-' !in CacheKey(es[i])
    ensures Load(prior, Some(es), CacheTreeOf(m), defaultMeta).Success?
    ensures Load(prior, Some(es), CacheTreeOf(m), defaultMeta).value.written.Some?
  {
    UndashedNameAlwaysMisses(m, es[i]);
  }

  /** "404.png" is such a name. */
  lemma UndashedNameExample(crc: uint32, pixels: seq<byte>)
    ensures CacheKey(ArchiveEntry("404.png", crc, pixels)) == "404"
    ensures '-' !in CacheKey(ArchiveEntry("404.png", crc, pixels))
  {
    FindFromIs("404.png", '.', 0, 3);
  }
}

=== FILE: blockids.dfy ===
/**
 * `blocks::BlockID`: the (id, meta) pair naming a block, parsed from texture
 * names such as "405-3.png" and printed as "405-3".
 */
module BlockIds {
  import opened CStrings

  datatype BlockID = BlockID(id: int, meta: int)

  /**
   * `BlockID(const std::string&)`: `id` is `atoi` of the text before the first `-`;
   * `meta` is `atoi` of `substr(dashpos + 1, dotpos)` (whose second argument is the
   * dot's index used as a length) when there is a `-`, and otherwise keeps the
   * default the class gives it, here `defaultMeta`.
   */
  function Parse(s: string, defaultMeta: int): BlockID {
    var dashpos := FindFrom(s, '-', 0);
    var dotpos := FindFrom(s, '.', 0);
    var id := Atoi(Substr(s, 0, dashpos));
    if dashpos.At? then BlockID(id, Atoi(Substr(s, dashpos.index + 1, dotpos)))
    else BlockID(id, defaultMeta)
  }

  /** `BlockID::operator<`: ids first, meta only between equal ids. */
  predicate Less(a: BlockID, b: BlockID) {
    if a.id < b.id then true
    else if a.id == b.id then a.meta < b.meta
    else false
  }

  /** `operator std::string`: "<id>-<meta>", meta always written. */
  function ToString(b: BlockID): string {
    IntToString(b.id) + "-" + IntToString(b.meta)
  }

  // ---------------------------------------------------------------- order

  /** `<` is a strict total order on `(id, meta)`, lexicographic. */
  lemma LessIsStrictTotalOrder(a: BlockID, b: BlockID, c: BlockID)
    ensures !Less(a, a)
    ensures Less(a, b) ==> !Less(b, a)
    ensures Less(a, b) && Less(b, c) ==> Less(a, c)
    ensures a == b || Less(a, b) || Less(b, a)
    ensures Less(a, b) <==> a.id < b.id || (a.id == b.id && a.meta < b.meta)
  {
  }

  // ---------------------------------------------------------------- parsing

  /** Without a `-`, the whole string is read as the id and meta keeps its default. */
  lemma ParseWithoutDash(s: string, defaultMeta: int)
    requires '-' !in s
    ensures Parse(s, defaultMeta) == BlockID(Atoi(s), defaultMeta)
  {
    assert FindFrom(s, '-', 0).NotFound?;
  }

  /**
   * A string whose first character after leading blanks and one optional `+` is not
   * a digit has id 0 (a `-` there is the separator, leaving the id text without
   * digits); parsing never fails.
   */
  lemma ParseNonNumericPrefix(s: string, defaultMeta: int)
    requires var t := SkipSpaces(s);
      var u := if t != [] && t[0] == '+' then t[1..] else t;
      u == [] || !IsDigit(u[0])
    ensures Parse(s, defaultMeta).id == 0
  {
    var dashpos := FindFrom(s, '-', 0);
    FindFromFirst(s, '-', 0);
    var n := if dashpos.At? then dashpos.index else |s|;
    var head := Substr(s, 0, dashpos);
    assert head == s[..n];
    var t := SkipSpaces(s);
    var th := SkipSpaces(head);
    SkipSpacesPrefix(s, n);
    SkipSpacesSuffix(head);
    if th != [] {
      assert th[0] == t[0];
      assert th[0] in head;
      if th[0] == '+' && |th| > 1 {
        assert th[1] == t[1];
      }
    }
  }

  /** `meta` is `atoi` of everything after the dash whenever no `.` comes before it. */
  lemma ParseMetaAfterDash(s: string, defaultMeta: int, dash: nat)
    requires dash < |s| && s[dash] == '-'
    requires forall j :: 0 <= j < dash ==> s[j] != '-' && s[j] != '.'
    ensures Parse(s, defaultMeta) == BlockID(Atoi(s[..dash]), Atoi(s[dash + 1..]))
  {
    FindFromIs(s, '-', 0, dash);
    var dotpos := FindFrom(s, '.', 0);
    var tail := Substr(s, dash + 1, dotpos);
    assert Substr(s, 0, At(dash)) == s[..dash];
    if dotpos.At? {
      AtoiOfSubstrToDot(s, dash + 1, dotpos.index);
    }
    assert Parse(s, defaultMeta) == BlockID(Atoi(Substr(s, 0, At(dash))), Atoi(tail));
  }

  /** A `.` before the dash makes `substr` cut the meta digits short: "1.-234" gives meta 2. */
  lemma ParseDotBeforeDash()
    ensures Parse("1.-234", 0) == BlockID(1, 2)
  {
    var s := "1.-234";
    FindFromIs(s, '-', 0, 2);
    FindFromIs(s, '.', 0, 1);
    var head, tail := Substr(s, 0, At(2)), Substr(s, 3, At(1));
    assert head == NatToString(1) + ".";
    assert tail == NatToString(2) + [];
    AtoiOfNatToString(1, ".");
    AtoiOfNatToString(2, []);
    assert Parse(s, 0) == BlockID(Atoi(head), Atoi(tail));
  }

  /** Printing then parsing gives back the same id and meta whenever the id is not negative. */
  lemma ParseToString(b: BlockID, defaultMeta: int)
    requires b.id >= 0
    ensures Parse(ToString(b), defaultMeta) == b
  {
    var head := NatToString(b.id);
    var s := ToString(b);
    assert s == head + "-" + IntToString(b.meta);
    assert forall j :: 0 <= j < |head| ==> s[j] == head[j] && IsDigit(s[j]);
    assert s[..|head|] == head;
    assert s[|head| + 1..] == IntToString(b.meta);
    ParseMetaAfterDash(s, defaultMeta, |head|);
    AtoiOfNatToString(b.id, []);
    assert head + [] == head;
    AtoiOfIntToString(b.meta, []);
    assert IntToString(b.meta) + [] == IntToString(b.meta);
  }

  /**
   * A negative id does not round-trip: the leading `-` is taken as the separator,
   * so the id reads as 0 and the meta as the id's magnitude.
   */
  lemma ParseToStringNegative(b: BlockID, defaultMeta: int)
    requires b.id < 0
    ensures Parse(ToString(b), defaultMeta) == BlockID(0, -b.id)
  {
    var digits := NatToString(-b.id);
    var rest := "-" + IntToString(b.meta);
    var s := ToString(b);
    assert s == "-" + (digits + rest);
    ParseMetaAfterDash(s, defaultMeta, 0);
    assert s[..0] == [];
    assert s[1..] == digits + rest;
    forall n | n == -b.id
      ensures Atoi(NatToString(n) + rest) == n
    {
      AtoiOfNatToString(n, rest);
    }
  }

  /** The printed form starts with `-` exactly when the id is negative. */
  lemma ToStringHead(a: BlockID)
    ensures ToString(a) != [] && (ToString(a)[0] == '-' <==> a.id < 0)
  {
    var head := IntToString(a.id);
    assert ToString(a) == head + ("-" + IntToString(a.meta));
    if a.id >= 0 {
      assert head[0] == NatToString(a.id)[0] && IsDigit(head[0]);
    }
  }

  /** Past its leading `-`, a negative id's printed form is that of its magnitude. */
  lemma ToStringOfNegative(a: BlockID)
    requires a.id < 0
    ensures ToString(a)[1..] == ToString(BlockID(-a.id, a.meta))
  {
    var rest := NatToString(-a.id) + "-" + IntToString(a.meta);
    assert ToString(a) == "-" + rest;
  }

  /** Distinct blocks print differently, negative ids included. */
  lemma ToStringInjective(a: BlockID, b: BlockID)
    requires ToString(a) == ToString(b)
    ensures a == b
  {
    ToStringHead(a);
    ToStringHead(b);
    if a.id >= 0 && b.id >= 0 {
      ParseToString(a, 0);
      ParseToString(b, 0);
    } else if a.id < 0 && b.id < 0 {
      var pa := BlockID(-a.id, a.meta);
      var pb := BlockID(-b.id, b.meta);
      ToStringOfNegative(a);
      ToStringOfNegative(b);
      ParseToString(pa, 0);
      ParseToString(pb, 0);
    }
  }
}

=== FILE: cachefile.dfy ===
/**
 * `BlockColors::saveNewJsonCache`: the text of the cache file, one JSON member
 * per stored block in ascending `BlockID` order, e.g.
 *   {
 *   	"2-4":{"crc":5234231, "color":2489974272},
 *   	"3-0":{"crc":17, "color":4278190335}
 *   }
 */
module CacheFile {
  import opened CStrings
  import opened Colors
  import opened BlockIds
  import opened ColorStore

  /** One member: tab, quoted `"<id>-<meta>"`, then the CRC and the packed colour. */
  function EntryText(k: BlockID, e: ColorEntry): string {
    "\t\"" + ToString(k) + "\":" + "{\"crc\":" + NatToString(e.crc)
      + ", \"color\":" + NatToString(Pack(e.color)) + "}"
  }

  /** The members' texts, in store order. */
  function EntryLines(m: Store): (ls: seq<string>)
    ensures |ls| == |m|
  {
    seq(|m|, i requires 0 <= i < |m| => EntryText(m[i].0, m[i].1))
  }

  /** Lines separated by `",\n"`. */
  function Join(ls: seq<string>): string {
    if |ls| == 0 then ""
    else if |ls| == 1 then ls[0]
    else Join(ls[..|ls| - 1]) + ",\n" + ls[|ls| - 1]
  }

  /** The file: `{`, the members one per line, `}`; an empty store gives "{\n}". */
  function CacheText(m: Store): string {
    "{\n" + Join(EntryLines(m)) + (if m == [] then "" else "\n") + "}"
  }

  /**
   * The source's writer: each member on its own line, followed by a comma unless
   * it is the last. The text it produces is the members joined by `",\n"`.
   */
  method SaveNewJsonCache(m: Store) returns (text: string)
    ensures text == CacheText(m)
  {
    ghost var ls := EntryLines(m);
    text := "{\n";
    var i := 0;
    while i < |m|
      invariant 0 <= i <= |m|
      invariant text == Written(ls, i)
    {
      var comma := if i + 1 != |m| then "," else "";
      var line := EntryText(m[i].0, m[i].1) + comma;
      assert line == ls[i] + comma;
      WrittenStep(ls, i);
      text := text + line + "\n";
      i := i + 1;
    }
    assert ls[..i] == ls;
    text := text + "}";
  }

  /** What the writer has produced after `i` lines, before the closing brace. */
  function Written(ls: seq<string>, i: nat): string
    requires i <= |ls|
  {
    if i == 0 then "{\n"
    else "{\n" + Join(ls[..i]) + (if i < |ls| then ",\n" else "\n")
  }

  // ---------------------------------------------------------------- lemmas

  /** Appending one line to the joined text. */
  lemma JoinSnoc(ls: seq<string>, i: nat)
    requires i < |ls|
    ensures i == 0 ==> Join(ls[..i + 1]) == ls[i]
    ensures i > 0 ==> Join(ls[..i + 1]) == Join(ls[..i]) + ",\n" + ls[i]
  {
    var p := ls[..i + 1];
    assert p[..i] == ls[..i] && p[i] == ls[i];
  }

  lemma Regroup(a: string, b: string, c: string, d: string, e: string, f: string)
    ensures a + b + c + (d + e) + f == a + (b + c + d) + (e + f)
  {
  }

  lemma WrittenStep(ls: seq<string>, i: nat)
    requires i < |ls|
    ensures Written(ls, i) + (ls[i] + (if i + 1 != |ls| then "," else "")) + "\n" == Written(ls, i + 1)
  {
    JoinSnoc(ls, i);
    var e := ls[i];
    var sep := if i + 1 != |ls| then "," else "";
    if i > 0 {
      var j := Join(ls[..i]);
      Regroup("{\n", j, ",\n", e, sep, "\n");
      assert Written(ls, i + 1) == "{\n" + (j + ",\n" + e) + (sep + "\n");
    } else {
      assert Written(ls, i) + (e + sep) + "\n" == "{\n" + e + (sep + "\n");
    }
  }

  lemma EmptyCacheText()
    ensures CacheText([]) == "{\n}"
  {
  }

  lemma {:induction false} CountAppend(a: string, b: string, c: char)
    ensures Count(a + b, c) == Count(a, c) + Count(b, c)
  {
    if a != [] {
      assert (a + b)[1..] == a[1..] + b;
      CountAppend(a[1..], b, c);
    } else {
      assert a + b == b;
    }
  }

  lemma {:induction false} CountZeroIffAbsent(s: string, c: char)
    ensures Count(s, c) == 0 <==> c !in s
  {
    if s != [] {
      CountZeroIffAbsent(s[1..], c);
      assert s == [s[0]] + s[1..];
    }
  }

  lemma EntryTextHasNoNewline(k: BlockID, e: ColorEntry)
    ensures '\n' !in EntryText(k, e)
  {
    DecimalHasNoNewline(k.id);
    DecimalHasNoNewline(k.meta);
    DecimalHasNoNewline(e.crc);
    DecimalHasNoNewline(Pack(e.color));
  }

  /** The decimal form of a number is a sign and digits: no line break. */
  lemma DecimalHasNoNewline(i: int)
    ensures '\n' !in IntToString(i)
    ensures i >= 0 ==> '\n' !in NatToString(i)
  {
    var ds := NatToString(if i < 0 then -i else i);
    assert forall j :: 0 <= j < |ds| ==> IsDigit(ds[j]);
    assert IntToString(i) == (if i < 0 then "-" else "") + ds;
  }

  /** Lines without newlines, joined: one newline per separator. */
  lemma {:induction false} JoinNewlines(ls: seq<string>)
    requires ls != []
    requires forall i :: 0 <= i < |ls| ==> Count(ls[i], '\n') == 0
    ensures Count(Join(ls), '\n') == |ls| - 1
  {
    var n := |ls| - 1;
    if n > 0 {
      var init := ls[..n];
      assert forall i :: 0 <= i < |init| ==> init[i] == ls[i];
      JoinNewlines(init);
      var prefix, sep := Join(init), ",\n";
      assert Join(ls) == prefix + sep + ls[n];
      assert Count(sep, '\n') == 1;
      CountAppend(prefix, sep, '\n');
      CountAppend(prefix + sep, ls[n], '\n');
    }
  }

  /** The file has one line per member plus the opening line: `|m| + 1` newlines. */
  lemma CacheTextLineCount(m: Store)
    ensures Count(CacheText(m), '\n') == |m| + 1
  {
    if m == [] {
      CountAbsent("}", '\n');
      CountAppend("{\n", "}", '\n');
      assert "{\n" + "}" == CacheText(m);
    } else {
      var ls := EntryLines(m);
      forall i | 0 <= i < |ls| ensures Count(ls[i], '\n') == 0 {
        EntryTextHasNoNewline(m[i].0, m[i].1);
        CountZeroIffAbsent(ls[i], '\n');
      }
      JoinNewlines(ls);
      var j := Join(ls);
      CountAppend("{\n", j, '\n');
      CountAppend("{\n" + j, "\n", '\n');
      CountAppend("{\n" + j + "\n", "}", '\n');
    }
  }
}

=== FILE: colorextraction.dfy ===
/**
 * `BlockColors::computeColor`: the representative colour of one decoded texture.
 *
 * The source groups non-transparent pixels in a `std::map` ordered by the
 * similarity test, which is not a strict weak ordering (see
 * `Colors.SimilarIsNotAStrictOrdering`), so the grouping the C++ standard
 * promises is undefined. This model follows the documented intent instead: the
 * pixels are scanned in order, a pixel joins the first bucket whose
 * representative (the pixel that opened it) is similar, otherwise it opens a new
 * bucket, and the representative of the first bucket with the largest count wins.
 */
module ColorExtraction {
  import opened Colors

  /** A group of similar pixels: the pixel that opened it and how many joined. */
  datatype Bucket = Bucket(rep: Color, count: nat)

  /** The colour of the 4-byte RGBA pixel starting at byte `i`. */
  function PixelAt(px: seq<byte>, i: nat): Color
    requires i + 4 <= |px|
  {
    Color(px[i], px[i + 1], px[i + 2], px[i + 3])
  }

  /**
   * The pixels of an RGBA8888 buffer whose alpha is not `SDL_ALPHA_TRANSPARENT`,
   * in buffer order. The buffer holds whole pixels: the source's loop steps by 4
   * until it reaches the size exactly.
   */
  function OpaquePixels(px: seq<byte>): (cs: seq<Color>)
    requires |px| % 4 == 0
    ensures forall c :: c in cs ==> c.a != AlphaTransparent
    ensures |cs| <= |px| / 4
    decreases |px|
  {
    if px == [] then []
    else
      var rest := OpaquePixels(px[..|px| - 4]);
      var c := PixelAt(px, |px| - 4);
      if c.a != AlphaTransparent then rest + [c] else rest
  }

  /**
   * The pixels counted are exactly the opaque ones at the 4-byte steps of the loop:
   * each opaque pixel is counted, and each counted colour is such a pixel.
   */
  lemma {:induction false} OpaquePixelsExactly(px: seq<byte>)
    requires |px| % 4 == 0
    ensures forall i :: (0 <= i && i + 4 <= |px| && i % 4 == 0 && PixelAt(px, i).a != AlphaTransparent
                         ==> PixelAt(px, i) in OpaquePixels(px))
    ensures forall c :: (c in OpaquePixels(px) ==>
                           exists i :: 0 <= i && i + 4 <= |px| && i % 4 == 0 && PixelAt(px, i) == c)
    decreases |px|
  {
    if px != [] {
      var init := px[..|px| - 4];
      OpaquePixelsExactly(init);
      assert forall i :: 0 <= i && i + 4 <= |init| ==> PixelAt(init, i) == PixelAt(px, i);
    }
  }

  /** The byte offsets of the loop's pixels whose alpha is not `SDL_ALPHA_TRANSPARENT`. */
  function OpaqueOffsets(px: seq<byte>): set<int> {
    set i | 0 <= i && i + 4 <= |px| && i % 4 == 0 && PixelAt(px, i).a != AlphaTransparent
  }

  /** As many pixels are counted as there are opaque pixels at the loop's 4-byte steps. */
  lemma {:induction false} OpaquePixelsCount(px: seq<byte>)
    requires |px| % 4 == 0
    ensures |OpaquePixels(px)| == |OpaqueOffsets(px)|
    decreases |px|
  {
    if px != [] {
      var n := |px| - 4;
      OpaquePixelsCount(px[..n]);
      OffsetsStep(px);
    }
  }

  /**
   * The opaque offsets of a buffer are those of all but its last pixel, plus the
   * last pixel's offset when it is opaque.
   */
  lemma OffsetsStep(px: seq<byte>)
    requires |px| % 4 == 0 && px != []
    ensures OpaqueOffsets(px) == OpaqueOffsets(px[..|px| - 4])
              + (if PixelAt(px, |px| - 4).a != AlphaTransparent then {|px| - 4} else {})
  {
    var n := |px| - 4;
    var init := px[..n];
    var last: set<int> := if PixelAt(px, n).a != AlphaTransparent then {n} else {};
    forall i ensures i in OpaqueOffsets(px) <==> i in OpaqueOffsets(init) + last {
      if 0 <= i && i + 4 <= n {
        assert PixelAt(init, i) == PixelAt(px, i);
      } else if 0 <= i && i + 4 <= |px| && i % 4 == 0 {
        LastStep(i, n);
      }
    }
  }

  /** The opaque offsets that come before byte `o`: the rank of `o` among them. */
  function OffsetsBefore(px: seq<byte>, o: int): set<int> {
    set i | i in OpaqueOffsets(px) && i < o
  }

  /** Appending pixels after `o` does not change which opaque offsets precede it. */
  lemma OffsetsBeforeStep(px: seq<byte>, o: int)
    requires |px| % 4 == 0 && px != [] && o <= |px| - 4
    ensures OffsetsBefore(px, o) == OffsetsBefore(px[..|px| - 4], o)
  {
    OffsetsStep(px);
    forall i ensures i in OffsetsBefore(px, o) <==> i in OffsetsBefore(px[..|px| - 4], o) {
    }
  }

  /**
   * Each opaque pixel of the buffer is counted at its rank among the opaque
   * offsets: the loop appends them in ascending offset order.
   */
  lemma {:induction false} OpaquePixelAt(px: seq<byte>, o: int)
    requires |px| % 4 == 0 && o in OpaqueOffsets(px)
    ensures |OffsetsBefore(px, o)| < |OpaquePixels(px)|
    ensures OpaquePixels(px)[|OffsetsBefore(px, o)|] == PixelAt(px, o)
    decreases |px|
  {
    var n := |px| - 4;
    var init := px[..n];
    OffsetsStep(px);
    if o < n {
      OpaquePixelAt(init, o);
      OffsetsBeforeStep(px, o);
      assert PixelAt(init, o) == PixelAt(px, o);
    } else {
      assert OffsetsBefore(px, o) == OpaqueOffsets(init);
      OpaquePixelsCount(init);
    }
  }

  /**
   * Conversely, each counted pixel is the opaque pixel whose rank is its
   * position; the offset returned is that pixel's.
   */
  lemma {:induction false} OpaqueOffsetAt(px: seq<byte>, j: nat) returns (o: int)
    requires |px| % 4 == 0 && j < |OpaquePixels(px)|
    ensures o in OpaqueOffsets(px) && |OffsetsBefore(px, o)| == j
    ensures OpaquePixels(px)[j] == PixelAt(px, o)
    decreases |px|
  {
    var n := |px| - 4;
    var init := px[..n];
    OffsetsStep(px);
    if j < |OpaquePixels(init)| {
      o := OpaqueOffsetAt(init, j);
      OffsetsBeforeStep(px, o);
      assert PixelAt(init, o) == PixelAt(px, o);
    } else {
      o := n;
      assert OffsetsBefore(px, o) == OpaqueOffsets(init);
      OpaquePixelsCount(init);
    }
  }

  /**
   * `OpaquePixels` lists the opaque pixels in ascending offset order, each once:
   * there are as many as opaque offsets, and the pixel at offset `o` sits at
   * position "number of opaque offsets before `o`".
   */
  lemma OpaquePixelsInOrder(px: seq<byte>)
    requires |px| % 4 == 0
    ensures |OpaquePixels(px)| == |OpaqueOffsets(px)|
    ensures forall o :: o in OpaqueOffsets(px) ==>
              |OffsetsBefore(px, o)| < |OpaquePixels(px)| && OpaquePixels(px)[|OffsetsBefore(px, o)|] == PixelAt(px, o)
  {
    OpaquePixelsCount(px);
    forall o | o in OpaqueOffsets(px)
      ensures |OffsetsBefore(px, o)| < |OpaquePixels(px)| && OpaquePixels(px)[|OffsetsBefore(px, o)|] == PixelAt(px, o)
    {
      OpaquePixelAt(px, o);
    }
  }

  /** The only 4-byte step in the last four bytes is the last pixel's. */
  lemma LastStep(i: int, n: int)
    requires i % 4 == 0 && n % 4 == 0 && n - 4 < i <= n
    ensures i == n
  {
  }

  /** Index of the first bucket whose representative is similar to `c`, or `|bs|`. */
  function FirstSimilar(bs: seq<Bucket>, c: Color): (k: nat)
    ensures k <= |bs|
    ensures forall j :: 0 <= j < k ==> !Similar(bs[j].rep, c)
    ensures k < |bs| ==> Similar(bs[k].rep, c)
  {
    if bs == [] then 0
    else if Similar(bs[0].rep, c) then 0
    else 1 + FirstSimilar(bs[1..], c)
  }

  /** Counts one pixel: into the first similar bucket, or into a new one. */
  function AddPixel(bs: seq<Bucket>, c: Color): seq<Bucket> {
    var k := FirstSimilar(bs, c);
    if k < |bs| then bs[k := Bucket(bs[k].rep, bs[k].count + 1)]
    else bs + [Bucket(c, 1)]
  }

  /** The buckets after counting every pixel of `cs`, in order. */
  function Bucketize(cs: seq<Color>): seq<Bucket> {
    if cs == [] then [] else AddPixel(Bucketize(cs[..|cs| - 1]), cs[|cs| - 1])
  }

  /**
   * `std::max_element` by count: the first bucket whose count no other bucket
   * exceeds (a later bucket replaces the current one only when strictly larger).
   */
  function FirstMax(bs: seq<Bucket>): (k: nat)
    requires bs != []
    ensures k < |bs|
    ensures forall j :: 0 <= j < |bs| ==> bs[j].count <= bs[k].count
    ensures forall j :: 0 <= j < k ==> bs[j].count < bs[k].count
  {
    if |bs| == 1 then 0
    else
      var k := FirstMax(bs[..|bs| - 1]);
      if bs[k].count < bs[|bs| - 1].count then |bs| - 1 else k
  }

  function SumCounts(bs: seq<Bucket>): nat {
    if bs == [] then 0 else SumCounts(bs[..|bs| - 1]) + bs[|bs| - 1].count
  }

  /** The representative of a bucket no other bucket outnumbers, and the first such. */
  predicate IsModeOf(bs: seq<Bucket>, c: Color) {
    exists k :: 0 <= k < |bs| && bs[k].rep == c
      && (forall j :: 0 <= j < |bs| ==> bs[j].count <= bs[k].count)
      && (forall j :: 0 <= j < k ==> bs[j].count < bs[k].count)
  }

  /**
   * The colour `computeColor` returns for a decoded buffer. An image without a
   * single non-transparent pixel leaves the source's map empty and dereferences
   * its end, so it is excluded.
   */
  function ComputeColor(px: seq<byte>): (c: Color)
    requires |px| % 4 == 0 && OpaquePixels(px) != []
    ensures c.a != AlphaTransparent
    ensures c in OpaquePixels(px)
    ensures IsModeOf(Bucketize(OpaquePixels(px)), c)
  {
    var cs := OpaquePixels(px);
    var bs := Bucketize(cs);
    BucketizeShape(cs);
    var k := FirstMax(bs);
    bs[k].rep
  }

  // ---------------------------------------------------------------- lemmas

  lemma {:induction false} SumCountsUpdate(bs: seq<Bucket>, k: nat, b: Bucket)
    requires k < |bs|
    ensures SumCounts(bs[k := b]) + bs[k].count == SumCounts(bs) + b.count
    decreases |bs|
  {
    var last := |bs| - 1;
    if k < last {
      assert bs[k := b][..last] == bs[..last][k := b];
      SumCountsUpdate(bs[..last], k, b);
    } else {
      assert bs[k := b][..last] == bs[..last];
    }
  }

  /** Every counted pixel is in exactly one bucket: the counts sum to the pixel count. */
  lemma {:induction false} BucketCountsSum(cs: seq<Color>)
    ensures SumCounts(Bucketize(cs)) == |cs|
  {
    if cs != [] {
      BucketCountsSum(cs[..|cs| - 1]);
      AddPixelCounts(Bucketize(cs[..|cs| - 1]), cs[|cs| - 1]);
    }
  }

  /** Counting one more pixel adds one to the total, whether it joins a bucket or opens one. */
  lemma AddPixelCounts(bs: seq<Bucket>, c: Color)
    ensures SumCounts(AddPixel(bs, c)) == SumCounts(bs) + 1
  {
    var k := FirstSimilar(bs, c);
    if k < |bs| {
      SumCountsUpdate(bs, k, Bucket(bs[k].rep, bs[k].count + 1));
    } else {
      assert (bs + [Bucket(c, 1)])[..|bs|] == bs;
    }
  }

  /**
   * The buckets' shape: each representative is one of the pixels, every bucket
   * holds at least one pixel, there is a bucket as soon as there is a pixel, and
   * no two representatives are similar.
   */
  lemma {:induction false} BucketizeShape(cs: seq<Color>)
    ensures var bs := Bucketize(cs);
      && (forall j :: 0 <= j < |bs| ==> bs[j].rep in cs && bs[j].count > 0)
      && (cs != [] ==> bs != [])
      && (forall i, j :: 0 <= i < j < |bs| ==> !Similar(bs[i].rep, bs[j].rep))
  {
    if cs != [] {
      var init := cs[..|cs| - 1];
      var prev := Bucketize(init);
      var c := cs[|cs| - 1];
      BucketizeShape(init);
      var k := FirstSimilar(prev, c);
      var bs := Bucketize(cs);
      assert forall x :: x in init ==> x in cs;
      if k == |prev| {
        assert bs == prev + [Bucket(c, 1)];
        forall i, j | 0 <= i < j < |bs|
          ensures !Similar(bs[i].rep, bs[j].rep)
        {
          if j == |prev| {
            SimilarIsSymmetric(prev[i].rep, c);
          }
        }
      }
    }
  }

  /** Some bucket's representative is similar to `c`. */
  predicate Covers(bs: seq<Bucket>, c: Color) {
    exists k :: 0 <= k < |bs| && Similar(bs[k].rep, c)
  }

  /** Every counted pixel is similar to the representative of some bucket. */
  lemma {:induction false} BucketsCoverPixels(cs: seq<Color>)
    ensures forall i :: 0 <= i < |cs| ==> Covers(Bucketize(cs), cs[i])
  {
    if cs != [] {
      var init := cs[..|cs| - 1];
      var prev := Bucketize(init);
      var c := cs[|cs| - 1];
      BucketsCoverPixels(init);
      var bs := Bucketize(cs);
      var k := FirstSimilar(prev, c);
      assert forall j :: 0 <= j < |prev| ==> bs[j].rep == prev[j].rep;
      forall i | 0 <= i < |cs|
        ensures Covers(bs, cs[i])
      {
        if i < |init| {
          assert cs[i] == init[i];
          assert Covers(prev, init[i]);
          var k' :| 0 <= k' < |prev| && Similar(prev[k'].rep, init[i]);
          assert Similar(bs[k'].rep, cs[i]);
        } else if k < |prev| {
          assert Similar(bs[k].rep, cs[i]);
        } else {
          SimilarIsReflexive(c);
          assert Similar(bs[|prev|].rep, cs[i]);
        }
      }
    }
  }

  /** The pixels of `cs` whose first similar representative in `bs` is bucket `k`. */
  function PixelsOf(bs: seq<Bucket>, cs: seq<Color>, k: nat): set<int> {
    set i | 0 <= i < |cs| && FirstSimilar(bs, cs[i]) == k
  }

  /** `bs` extends `prev`: the same representatives in front, possibly more after. */
  predicate Extends(bs: seq<Bucket>, prev: seq<Bucket>) {
    |prev| <= |bs| && forall j :: 0 <= j < |prev| ==> bs[j].rep == prev[j].rep
  }

  /**
   * Against extended buckets, a pixel whose first similar representative lies among
   * the old buckets finds the same one, and a pixel that found none finds none
   * among the old ones.
   */
  lemma FirstSimilarExtend(prev: seq<Bucket>, bs: seq<Bucket>, c: Color)
    requires Extends(bs, prev)
    ensures FirstSimilar(prev, c) < |prev| ==> FirstSimilar(bs, c) == FirstSimilar(prev, c)
    ensures FirstSimilar(prev, c) == |prev| ==> FirstSimilar(bs, c) >= |prev|
  {
    var a := FirstSimilar(prev, c);
    if a < |prev| {
      assert Similar(bs[a].rep, c);
    }
  }

  /**
   * Counting one pixel extends the buckets, sends the pixel to its first similar
   * bucket or to the new one, and adds one to that bucket's count alone.
   */
  lemma AddPixelStep(prev: seq<Bucket>, c: Color)
    ensures var bs := AddPixel(prev, c);
      && Extends(bs, prev)
      && FirstSimilar(bs, c) == (if FirstSimilar(prev, c) < |prev| then FirstSimilar(prev, c) else |prev|)
      && |bs| == (if FirstSimilar(prev, c) < |prev| then |prev| else |prev| + 1)
      && (FirstSimilar(prev, c) == |prev| ==> bs[|prev|] == Bucket(c, 1))
      && forall k :: 0 <= k < |bs| ==>
           bs[k].count == (if k < |prev| then prev[k].count else 0) + (if FirstSimilar(bs, c) == k then 1 else 0)
  {
    var bs := AddPixel(prev, c);
    assert Extends(bs, prev);
    FirstSimilarExtend(prev, bs, c);
    if FirstSimilar(prev, c) == |prev| {
      SimilarIsReflexive(c);
      assert bs[|prev|].rep == c;
    }
  }

  /**
   * Against extended buckets, the earlier pixels, each covered by the old buckets,
   * go where they went before, and the new pixel joins the bucket it is sent to.
   */
  lemma {:induction false} PixelsOfStep(prev: seq<Bucket>, bs: seq<Bucket>, init: seq<Color>, c: Color, k: nat)
    requires Extends(bs, prev)
    requires forall i :: 0 <= i < |init| ==> Covers(prev, init[i])
    ensures |PixelsOf(bs, init + [c], k)|
      == (if k < |prev| then |PixelsOf(prev, init, k)| else 0) + (if FirstSimilar(bs, c) == k then 1 else 0)
  {
    var cs := init + [c];
    var n := |init|;
    forall i | 0 <= i < n ensures FirstSimilar(bs, cs[i]) == FirstSimilar(prev, init[i]) < |prev| {
      assert cs[i] == init[i];
      FirstSimilarExtend(prev, bs, init[i]);
    }
    var mine: set<int> := if FirstSimilar(bs, c) == k then {n} else {};
    forall i ensures i in PixelsOf(bs, cs, k) <==> i in PixelsOf(prev, init, k) + mine {
      if 0 <= i < n {
        assert cs[i] == init[i];
      }
    }
    assert PixelsOf(bs, cs, k) == PixelsOf(prev, init, k) + mine;
    assert n !in PixelsOf(prev, init, k);
    if k >= |prev| {
      assert PixelsOf(prev, init, k) == {};
    }
  }

  /**
   * Each bucket counts exactly the pixels whose first similar representative it
   * is: the count is the number of pixels that the final buckets send to it.
   */
  lemma BucketCounts(cs: seq<Color>)
    ensures forall k :: 0 <= k < |Bucketize(cs)| ==> Bucketize(cs)[k].count == |PixelsOf(Bucketize(cs), cs, k)|
  {
    forall k | 0 <= k < |Bucketize(cs)| ensures Bucketize(cs)[k].count == |PixelsOf(Bucketize(cs), cs, k)| {
      BucketCount(cs, k);
    }
  }

  /** Bucket `k` counts the pixels that the final buckets send to it. */
  lemma {:induction false} BucketCount(cs: seq<Color>, k: nat)
    requires k < |Bucketize(cs)|
    ensures Bucketize(cs)[k].count == |PixelsOf(Bucketize(cs), cs, k)|
  {
    var n := |cs| - 1;
    var init := cs[..n];
    var prev := Bucketize(init);
    var c := cs[n];
    var bs := Bucketize(cs);
    assert bs == AddPixel(prev, c);
    AddPixelStep(prev, c);
    BucketsCoverPixels(init);
    assert init + [c] == cs;
    PixelsOfStep(prev, bs, init, c, k);
    if k < |prev| {
      BucketCount(init, k);
    }
  }

  /** Pixels the old buckets cover go, against extended buckets, where they went before. */
  lemma CoveredPixelsStay(prev: seq<Bucket>, bs: seq<Bucket>, init: seq<Color>)
    requires Extends(bs, prev)
    requires forall i :: 0 <= i < |init| ==> Covers(prev, init[i])
    ensures forall j :: 0 <= j < |init| ==>
      FirstSimilar(bs, init[j]) == FirstSimilar(prev, init[j]) && FirstSimilar(prev, init[j]) < |prev|
  {
    forall j | 0 <= j < |init|
      ensures FirstSimilar(bs, init[j]) == FirstSimilar(prev, init[j]) && FirstSimilar(prev, init[j]) < |prev|
    {
      var k' :| 0 <= k' < |prev| && Similar(prev[k'].rep, init[j]);
      FirstSimilarExtend(prev, bs, init[j]);
    }
  }

  /**
   * Bucket `k` is represented by the first pixel it counts: the pixel that opened
   * it, which the source inserts as the map key.
   */
  lemma {:induction false} BucketRep(cs: seq<Color>, k: nat) returns (i: nat)
    requires k < |Bucketize(cs)|
    ensures i < |cs| && Bucketize(cs)[k].rep == cs[i] && FirstSimilar(Bucketize(cs), cs[i]) == k
    ensures forall j :: 0 <= j < i ==> FirstSimilar(Bucketize(cs), cs[j]) != k
  {
    var n := |cs| - 1;
    var init := cs[..n];
    var prev := Bucketize(init);
    var c := cs[n];
    var bs := Bucketize(cs);
    assert bs == AddPixel(prev, c);
    AddPixelStep(prev, c);
    BucketsCoverPixels(init);
    CoveredPixelsStay(prev, bs, init);
    assert forall j :: 0 <= j < n ==> cs[j] == init[j];
    if k < |prev| {
      i := BucketRep(init, k);
    } else {
      i := n;
    }
  }

  /**
   * The groups are in the order their first pixels come in the buffer: a pixel
   * counted by a later group comes after some pixel counted by an earlier one. This
   * order breaks the ties `FirstMax` settles, where `max_element` takes the first
   * most-used entry in the map's order.
   */
  lemma {:induction false} BucketsInFirstPixelOrder(cs: seq<Color>, k1: nat, k2: nat, i2: nat) returns (i1: nat)
    requires k1 < k2 < |Bucketize(cs)|
    requires i2 < |cs| && FirstSimilar(Bucketize(cs), cs[i2]) == k2
    ensures i1 < i2 && FirstSimilar(Bucketize(cs), cs[i1]) == k1
  {
    var n := |cs| - 1;
    var init := cs[..n];
    var prev := Bucketize(init);
    var c := cs[n];
    var bs := Bucketize(cs);
    assert bs == AddPixel(prev, c);
    AddPixelStep(prev, c);
    BucketsCoverPixels(init);
    CoveredPixelsStay(prev, bs, init);
    assert forall j :: 0 <= j < n ==> cs[j] == init[j];
    if i2 < n {
      i1 := BucketsInFirstPixelOrder(init, k1, k2, i2);
    } else {
      i1 := BucketRep(init, k1);
    }
  }

  /** A single-colour texture is that colour. */
  lemma ComputeColorOfUniform(c: Color)
    requires c.a != AlphaTransparent
    ensures ComputeColor([c.r, c.g, c.b, c.a]) == c
  {
    var px: seq<byte> := [c.r, c.g, c.b, c.a];
    assert px[..0] == [];
    assert OpaquePixels(px) == [c];
    assert [c][..0] == [];
  }
}

=== FILE: colors.dfy ===
/**
 * `SDL_Color` values, the similarity test `SimilarColorCompare` that groups pixels,
 * and the RGBA8888 packing `SDL_MapRGBA` / `SDL_GetRGBA` uses for the cache file
 * (red in the most significant byte, alpha in the least).
 */
module Colors {

  type byte = x: int | 0 <= x < 0x100
  type uint32 = x: int | 0 <= x < 0x1_0000_0000

  datatype Color = Color(r: byte, g: byte, b: byte, a: byte)

  /** `SDL_ALPHA_TRANSPARENT`. */
  const AlphaTransparent: byte := 0

  /** The colour `getBlockColor` answers for an unknown block. */
  const Transparent := Color(0, 0, 0, 0)

  /** `SimilarColorCompare::tol`. */
  const Tolerance := 20

  function Abs(x: int): nat {
    if x < 0 then -x else x
  }

  /** Two colours are similar when red, green and blue each differ by less than 20. */
  predicate Similar(a: Color, b: Color) {
    Abs(a.r - b.r) < Tolerance && Abs(a.g - b.g) < Tolerance && Abs(a.b - b.b) < Tolerance
  }

  lemma SimilarIsReflexive(c: Color)
    ensures Similar(c, c)
  {
  }

  lemma SimilarIsSymmetric(a: Color, b: Color)
    ensures Similar(a, b) <==> Similar(b, a)
  {
  }

  /** Alpha plays no part in similarity. */
  lemma SimilarIgnoresAlpha(a: Color, b: Color, alphaA: byte, alphaB: byte)
    ensures Similar(a, b) <==> Similar(a.(a := alphaA), b.(a := alphaB))
  {
  }

  /** Similarity is not transitive: grey 0 ~ grey 15 ~ grey 30, but 0 is not like 30. */
  lemma SimilarIsNotTransitive()
    ensures exists a, b, c :: Similar(a, b) && Similar(b, c) && !Similar(a, c)
  {
    var a, b, c := Color(0, 0, 0, 255), Color(15, 15, 15, 255), Color(30, 30, 30, 255);
    assert Similar(a, b) && Similar(b, c) && !Similar(a, c);
  }

  /**
   * Used as the ordering of a `std::map`, the comparison must be a strict weak
   * ordering, and in particular irreflexive; this one holds of every colour with
   * itself, so the map's grouping is not defined by the C++ standard.
   */
  lemma SimilarIsNotAStrictOrdering()
    ensures forall c: Color :: Similar(c, c)
    ensures exists a: Color, b: Color :: Similar(a, b) && Similar(b, a) && a != b
  {
    var a, b := Color(0, 0, 0, 255), Color(1, 0, 0, 255);
    assert Similar(a, b) && Similar(b, a) && a != b;
  }

  // ---------------------------------------------------------------- RGBA8888

  /** `SDL_MapRGBA` for `SDL_PIXELFORMAT_RGBA8888`. */
  function Pack(c: Color): (p: uint32)
    ensures p / 0x100_0000 == c.r
    ensures p % 0x100 == c.a
  {
    var low := c.g * 0x1_0000 + c.b * 0x100 + c.a;
    var high := c.r * 0x1_0000 + c.g * 0x100 + c.b;
    DivModOfSum(c.r, 0x100_0000, low);
    DivModOfSum(high, 0x100, c.a);
    c.r * 0x100_0000 + c.g * 0x1_0000 + c.b * 0x100 + c.a
  }

  /** `SDL_GetRGBA` for `SDL_PIXELFORMAT_RGBA8888`. */
  function Unpack(p: uint32): Color {
    Color(p / 0x100_0000, (p / 0x1_0000) % 0x100, (p / 0x100) % 0x100, p % 0x100)
  }

  /** Division and remainder undo `q * d + r` when `r` is a remainder. */
  lemma DivModOfSum(q: nat, d: nat, r: nat)
    requires r < d
    ensures (q * d + r) / d == q && (q * d + r) % d == r
  {
    var x := q * d + r;
    var k := x / d - q;
    assert k * d == r - x % d by {
      assert x == (x / d) * d + x % d;
      assert (x / d) * d - q * d == (x / d - q) * d;
    }
    MultipleOutsideBand(k, d);
  }

  /** A non-zero multiple of `d` is at least `d` away from 0. */
  lemma MultipleOutsideBand(k: int, d: int)
    requires d >= 0
    ensures k >= 1 ==> k * d >= d
    ensures k <= -1 ==> k * d <= 0 - d
  {
    if k >= 1 {
      assert k * d == (k - 1) * d + d;
    } else if k <= -1 {
      assert k * d == (k + 1) * d - d;
    }
  }

  /** Unpacking a packed colour gives the colour back. */
  lemma UnpackPack(c: Color)
    ensures Unpack(Pack(c)) == c
  {
    var p := Pack(c);
    var hi := c.r * 0x100 + c.g;
    var mid := hi * 0x100 + c.b;
    assert p == mid * 0x100 + c.a;
    DivModOfSum(mid, 0x100, c.a);
    DivModOfSum(hi, 0x100, c.b);
    DivModOfSum(c.r, 0x100, c.g);
    assert p == hi * 0x1_0000 + (c.b * 0x100 + c.a);
    DivModOfSum(hi, 0x1_0000, c.b * 0x100 + c.a);
  }

  /** Packing an unpacked pixel gives the pixel back: the two are inverse bijections. */
  lemma PackUnpack(p: uint32)
    ensures Pack(Unpack(p)) == p
  {
    var c := Unpack(p);
    var q1 := p / 0x100;
    var q2 := p / 0x1_0000;
    assert p == q1 * 0x100 + p % 0x100;
    assert q1 == (q1 / 0x100) * 0x100 + q1 % 0x100;
    assert q1 / 0x100 == q2;
    assert q2 == (q2 / 0x100) * 0x100 + q2 % 0x100;
    assert q2 / 0x100 == p / 0x100_0000;
  }
}

=== FILE: colorstore.dfy ===
/**
 * `BlockColors::blockColors`, a `std::map<BlockID, std::pair<SDL_Color, unsigned>>`,
 * modelled as what a `std::map` is to its iterators: a sequence of entries in
 * strictly ascending key order.
 */
module ColorStore {
  import opened Wrappers
  import opened Colors
  import opened BlockIds

  /** The value stored per block: its colour and the archive CRC it came from. */
  datatype ColorEntry = ColorEntry(color: Color, crc: uint32)

  type Store = seq<(BlockID, ColorEntry)>

  /** Keys strictly ascending under `BlockID::operator<`, hence unique. */
  predicate Ordered(m: Store) {
    forall i, j :: 0 <= i < j < |m| ==> Less(m[i].0, m[j].0)
  }

  function Keys(m: Store): (ks: set<BlockID>)
    ensures ks == {} <==> m == []
  {
    if m == [] then {} else {m[0].0} + Keys(m[1..])
  }

  /** `find`: the value under `k`, if any. */
  function Lookup(m: Store, k: BlockID): Option<ColorEntry> {
    if m == [] then None
    else if m[0].0 == k then Some(m[0].1)
    else Lookup(m[1..], k)
  }

  /** `m[k] = v`: inserts `k` in key order, or overwrites the value already under it. */
  function Insert(m: Store, k: BlockID, v: ColorEntry): Store {
    if m == [] then [(k, v)]
    else if m[0].0 == k then [(k, v)] + m[1..]
    else if Less(k, m[0].0) then [(k, v)] + m
    else [m[0]] + Insert(m[1..], k, v)
  }

  // ---------------------------------------------------------------- lemmas

  lemma {:induction false} EntryKeyInKeys(m: Store, i: nat)
    requires i < |m|
    ensures m[i].0 in Keys(m)
  {
    if i > 0 {
      EntryKeyInKeys(m[1..], i - 1);
    }
  }

  /** In an ordered store every later key is above the first, and the tail is ordered. */
  lemma {:induction false} OrderedTail(m: Store)
    requires Ordered(m) && m != []
    ensures Ordered(m[1..])
    ensures forall x :: x in Keys(m[1..]) ==> Less(m[0].0, x)
  {
    forall x | x in Keys(m[1..]) ensures Less(m[0].0, x) {
      var i := KeyIndex(m[1..], x);
      assert m[i + 1].0 == x;
    }
  }

  /** The position of a key in the store. */
  lemma {:induction false} KeyIndex(m: Store, k: BlockID) returns (i: nat)
    requires k in Keys(m)
    ensures i < |m| && m[i].0 == k
  {
    if m[0].0 == k {
      i := 0;
    } else {
      var j := KeyIndex(m[1..], k);
      i := j + 1;
    }
  }

  /** A lookup succeeds exactly on the keys, and yields the value stored with the key. */
  lemma {:induction false} LookupFindsKeys(m: Store, k: BlockID)
    ensures Lookup(m, k).Some? <==> k in Keys(m)
    ensures Lookup(m, k).Some? ==> exists i :: 0 <= i < |m| && m[i] == (k, Lookup(m, k).value)
  {
    if m != [] && m[0].0 != k {
      LookupFindsKeys(m[1..], k);
      if Lookup(m, k).Some? {
        var i :| 0 <= i < |m[1..]| && m[1..][i] == (k, Lookup(m, k).value);
        assert m[i + 1] == m[1..][i];
      }
    }
  }

  /**
   * Insertion keeps the store ordered, adds exactly `k` to its keys, and changes
   * the lookup of `k` alone, to `v`.
   */
  lemma {:induction false} InsertSpec(m: Store, k: BlockID, v: ColorEntry)
    requires Ordered(m)
    ensures Ordered(Insert(m, k, v))
    ensures Keys(Insert(m, k, v)) == Keys(m) + {k}
    ensures forall j :: Lookup(Insert(m, k, v), j) == if j == k then Some(v) else Lookup(m, j)
  {
    var r := Insert(m, k, v);
    if m == [] {
    } else if m[0].0 == k {
      OrderedTail(m);
      assert r[1..] == m[1..];
      forall i, j | 0 <= i < j < |r| ensures Less(r[i].0, r[j].0) {
        if i == 0 {
          EntryKeyInKeys(m[1..], j - 1);
        } else {
          assert r[i] == m[i] && r[j] == m[j];
        }
      }
    } else if Less(k, m[0].0) {
      assert r[1..] == m;
      forall i, j | 0 <= i < j < |r| ensures Less(r[i].0, r[j].0) {
        if i == 0 {
          LessIsStrictTotalOrder(k, m[0].0, m[j - 1].0);
        }
      }
    } else {
      OrderedTail(m);
      var tail := Insert(m[1..], k, v);
      InsertSpec(m[1..], k, v);
      assert r[1..] == tail;
      LessIsStrictTotalOrder(m[0].0, k, k);
      forall i, j | 0 <= i < j < |r| ensures Less(r[i].0, r[j].0) {
        if i == 0 {
          EntryKeyInKeys(tail, j - 1);
        } else {
          assert r[i] == tail[i - 1] && r[j] == tail[j - 1];
        }
      }
    }
  }

  /** An ordered store is determined by its lookups: equal contents, equal sequence. */
  lemma {:induction false} OrderedExtensional(a: Store, b: Store)
    requires Ordered(a) && Ordered(b)
    requires forall k :: Lookup(a, k) == Lookup(b, k)
    ensures a == b
    decreases |a|
  {
    if a != [] || b != [] {
      assert Keys(a) == Keys(b) by {
        forall k ensures k in Keys(a) <==> k in Keys(b) {
          LookupFindsKeys(a, k);
          LookupFindsKeys(b, k);
        }
      }
      assert a != [] && b != [];
      OrderedTail(a);
      OrderedTail(b);
      var ka, kb := a[0].0, b[0].0;
      assert ka == kb by {
        assert ka in Keys(b) && kb in Keys(a);
        LessIsStrictTotalOrder(ka, kb, ka);
      }
      assert ka !in Keys(a[1..]) && ka !in Keys(b[1..]) by {
        LessIsStrictTotalOrder(ka, ka, ka);
      }
      assert a[0] == b[0] by {
        assert Lookup(a, ka) == Some(a[0].1) && Lookup(b, kb) == Some(b[0].1);
      }
      forall k ensures Lookup(a[1..], k) == Lookup(b[1..], k) {
        if k == ka {
          LookupFindsKeys(a[1..], k);
          LookupFindsKeys(b[1..], k);
        } else {
          assert Lookup(a, k) == Lookup(a[1..], k) && Lookup(b, k) == Lookup(b[1..], k);
        }
      }
      OrderedExtensional(a[1..], b[1..]);
      assert a == [a[0]] + a[1..] && b == [b[0]] + b[1..];
    }
  }
}

=== FILE: cstrings.dfy ===
/**
 * The C and C++ string primitives the program relies on, modelled on `seq<char>`:
 * `std::atoi` (section 7.22.1.2 of ISO C11), `std::string::find`, `std::string::substr`
 * and the decimal formatting of `operator<<` on integers.
 */
module CStrings {

  /** A position returned by `std::string::find`: an index, or `npos`. */
  datatype Pos = At(index: nat) | NotFound

  /** `pos + 1` in `size_t` arithmetic: `npos + 1` wraps around to 0. */
  function Next(p: Pos): nat {
    match p
    case At(i) => i + 1
    case NotFound => 0
  }

  /** `s.find(c, from)`: the first index at or after `from` holding `c`. */
  function FindFrom(s: string, c: char, from: nat): (p: Pos)
    ensures p.At? ==> from <= p.index < |s| && s[p.index] == c
    decreases |s| - from
  {
    if from >= |s| then NotFound
    else if s[from] == c then At(from)
    else FindFrom(s, c, from + 1)
  }

  /**
   * `s.substr(pos, count)`: at most `count` characters starting at `pos`;
   * `count == npos` takes the rest of the string. The second argument is a
   * length, not an end position.
   */
  function Substr(s: string, pos: nat, count: Pos): string
    requires pos <= |s|
  {
    match count
    case NotFound => s[pos..]
    case At(n) => if pos + n <= |s| then s[pos..pos + n] else s[pos..]
  }

  /** Nothing before the index `find` returns, and nothing at all when it fails, is `c`. */
  lemma {:induction false} FindFromFirst(s: string, c: char, from: nat)
    ensures FindFrom(s, c, from).At? ==> forall j :: from <= j < FindFrom(s, c, from).index ==> s[j] != c
    ensures FindFrom(s, c, from).NotFound? ==> forall j :: from <= j < |s| ==> s[j] != c
    decreases |s| - from
  {
    if from < |s| && s[from] != c {
      FindFromFirst(s, c, from + 1);
    }
  }

  /** `s.substr(0, s.find(c))`: the text before the first `c`, or all of `s`. */
  function CutAt(s: string, c: char): (r: string)
    ensures c !in r
    ensures r <= s
    ensures |r| < |s| ==> s[|r|] == c
  {
    FindFromFirst(s, c, 0);
    Substr(s, 0, FindFrom(s, c, 0))
  }

  /** Number of occurrences of `c` in `s`. */
  function Count(s: string, c: char): nat {
    if s == [] then 0 else (if s[0] == c then 1 else 0) + Count(s[1..], c)
  }

  // ---------------------------------------------------------------- atoi

  /** `isspace` in the "C" locale. */
  predicate IsSpace(c: char) {
    c == ' ' || c == '\t' || c == '\n' || c == 11 as char || c == 12 as char || c == '\r'
  }

  predicate IsDigit(c: char) {
    '0' <= c <= '9'
  }

  predicate AllDigits(s: string) {
    forall i :: 0 <= i < |s| ==> IsDigit(s[i])
  }

  /** `s` without its leading white space. */
  function SkipSpaces(s: string): string {
    if s != [] && IsSpace(s[0]) then SkipSpaces(s[1..]) else s
  }

  /** The longest prefix of `s` made of decimal digits. */
  function DigitPrefix(s: string): string {
    if s != [] && IsDigit(s[0]) then [s[0]] + DigitPrefix(s[1..]) else []
  }

  /** The value of a decimal digit character. */
  function DigitValue(c: char): int {
    (c as int) - ('0' as int)
  }

  /** The value of a string of decimal digits, most significant first. */
  function DigitsValue(ds: string): int {
    if ds == [] then 0 else DigitsValue(ds[..|ds| - 1]) * 10 + DigitValue(ds[|ds| - 1])
  }

  /**
   * `std::atoi`: skip white space, read an optional sign, then the longest run of
   * digits. Text that does not start a number gives 0; it never fails. Overflow
   * (undefined in C) does not arise on unbounded integers.
   */
  function Atoi(s: string): int {
    var t := SkipSpaces(s);
    if t != [] && t[0] == '-' then -DigitsValue(DigitPrefix(t[1..]))
    else if t != [] && t[0] == '+' then DigitsValue(DigitPrefix(t[1..]))
    else DigitsValue(DigitPrefix(t))
  }

  // ---------------------------------------------------------------- printing

  function DigitChar(d: nat): (c: char)
    requires d < 10
    ensures IsDigit(c) && DigitValue(c) == d
  {
    ('0' as int + d) as char
  }

  /** Decimal form of a natural number, as `operator<<` writes it. */
  function NatToString(n: nat): (r: string)
    ensures r != [] && AllDigits(r)
  {
    if n < 10 then [DigitChar(n)] else NatToString(n / 10) + [DigitChar(n % 10)]
  }

  /** Decimal form of an integer, with a leading `-` when negative. */
  function IntToString(i: int): (r: string)
    ensures r != [] && (r[0] == '-' <==> i < 0)
  {
    if i < 0 then "-" + NatToString(-i) else NatToString(i)
  }

  // ---------------------------------------------------------------- lemmas

  /** `operator<<` writes no leading zero: only 0 itself starts with '0'. */
  lemma {:induction false} NatToStringNoLeadingZero(n: nat)
    ensures NatToString(n)[0] == '0' <==> n == 0
  {
    if n >= 10 {
      NatToStringNoLeadingZero(n / 10);
      assert NatToString(n)[0] == NatToString(n / 10)[0];
    }
  }

  lemma {:induction false} DigitsValueOfNatToString(n: nat)
    ensures DigitsValue(NatToString(n)) == n
  {
    if n >= 10 {
      var p := NatToString(n / 10);
      var s := p + [DigitChar(n % 10)];
      assert s[..|s| - 1] == p;
      DigitsValueOfNatToString(n / 10);
    }
  }

  /** A run of digits followed by a non-digit (or nothing) is the whole digit prefix. */
  lemma {:induction false} DigitPrefixOfDigits(ds: string, rest: string)
    requires AllDigits(ds)
    requires rest == [] || !IsDigit(rest[0])
    ensures DigitPrefix(ds + rest) == ds
  {
    if ds != [] {
      assert (ds + rest)[1..] == ds[1..] + rest;
      DigitPrefixOfDigits(ds[1..], rest);
    } else {
      assert ds + rest == rest;
    }
  }

  /** `atoi` reads back what `NatToString` writes, whatever non-digit text follows. */
  lemma AtoiOfNatToString(n: nat, rest: string)
    requires rest == [] || !IsDigit(rest[0])
    ensures Atoi(NatToString(n) + rest) == n
  {
    var ds := NatToString(n);
    var s := ds + rest;
    assert s[0] == ds[0] && IsDigit(s[0]);
    assert SkipSpaces(s) == s;
    DigitPrefixOfDigits(ds, rest);
    DigitsValueOfNatToString(n);
    assert Atoi(s) == DigitsValue(DigitPrefix(s));
  }

  /** `atoi` reads back what `IntToString` writes, whatever non-digit text follows. */
  lemma AtoiOfIntToString(i: int, rest: string)
    requires rest == [] || !IsDigit(rest[0])
    ensures Atoi(IntToString(i) + rest) == i
  {
    if i < 0 {
      forall n | n == -i
        ensures Atoi("-" + (NatToString(n) + rest)) == 0 - n
      {
        AtoiOfMinus(n, rest);
      }
      assert IntToString(i) + rest == "-" + (NatToString(-i) + rest);
    } else {
      AtoiOfNatToString(i, rest);
    }
  }

  lemma AtoiOfMinus(n: nat, rest: string)
    requires rest == [] || !IsDigit(rest[0])
    ensures Atoi("-" + (NatToString(n) + rest)) == 0 - n
  {
    var s := "-" + (NatToString(n) + rest);
    assert SkipSpaces(s) == s;
    assert s[1..] == NatToString(n) + rest;
    DigitPrefixOfDigits(NatToString(n), rest);
    DigitsValueOfNatToString(n);
  }

  /** A string that does not begin a number (after optional blanks) reads as 0. */
  lemma AtoiOfNonNumeric(s: string)
    requires s == [] || !(IsDigit(s[0]) || IsSpace(s[0]) || s[0] == '-' || s[0] == '+')
    ensures Atoi(s) == 0
  {
  }

  /** Skipping blanks leaves a suffix of the string. */
  lemma {:induction false} SkipSpacesSuffix(s: string)
    ensures |SkipSpaces(s)| <= |s| && SkipSpaces(s) == s[|s| - |SkipSpaces(s)|..]
  {
    if s != [] && IsSpace(s[0]) {
      SkipSpacesSuffix(s[1..]);
    }
  }

  /** Skipping the blanks of a prefix gives a prefix of what skipping the whole string gives. */
  lemma {:induction false} SkipSpacesPrefix(s: string, n: nat)
    requires n <= |s|
    ensures SkipSpaces(s[..n]) <= SkipSpaces(s)
  {
    if n > 0 && IsSpace(s[0]) {
      assert s[..n][1..] == s[1..][..n - 1];
      SkipSpacesPrefix(s[1..], n - 1);
    }
  }

  lemma {:induction false} SkipSpacesAppend(t: string, u: string)
    requires u != [] && !IsSpace(u[0])
    ensures SkipSpaces(t + u) == SkipSpaces(t) + u
  {
    if t != [] {
      assert (t + u)[0] == t[0];
      if IsSpace(t[0]) {
        assert (t + u)[1..] == t[1..] + u;
        SkipSpacesAppend(t[1..], u);
      }
    } else {
      assert t + u == u;
    }
  }

  lemma {:induction false} DigitPrefixAppend(t: string, u: string)
    requires u != [] && !IsDigit(u[0])
    ensures DigitPrefix(t + u) == DigitPrefix(t)
  {
    if t != [] {
      assert (t + u)[0] == t[0];
      if IsDigit(t[0]) {
        assert (t + u)[1..] == t[1..] + u;
        DigitPrefixAppend(t[1..], u);
      }
    } else {
      assert t + u == u;
    }
  }

  /**
   * `atoi` stops at a character that is neither a digit, a blank nor a sign:
   * what follows it is never read.
   */
  lemma AtoiStopsAt(t: string, u: string)
    requires u != [] && !(IsDigit(u[0]) || IsSpace(u[0]) || u[0] == '-' || u[0] == '+')
    ensures Atoi(t + u) == Atoi(t)
  {
    SkipSpacesAppend(t, u);
    var st := SkipSpaces(t);
    if st == [] {
      assert SkipSpaces(t + u) == u;
    } else {
      assert SkipSpaces(t + u) == st + u;
      assert (st + u)[0] == st[0];
      if st[0] == '-' || st[0] == '+' {
        assert (st + u)[1..] == st[1..] + u;
        DigitPrefixAppend(st[1..], u);
      } else {
        DigitPrefixAppend(st, u);
      }
    }
  }

  /**
   * `s.substr(start, d)` with `d` the index of a `.` at or after `start` (an index
   * passed where a length is expected) reaches at least that dot, so `atoi` reads
   * exactly the text between `start` and the dot.
   */
  lemma AtoiOfSubstrToDot(s: string, start: nat, d: nat)
    requires start <= d < |s| && s[d] == '.'
    ensures Atoi(Substr(s, start, At(d))) == Atoi(s[start..d])
    ensures Atoi(s[start..]) == Atoi(s[start..d])
  {
    var tail := Substr(s, start, At(d));
    var stop := if start + d < |s| then start + d else |s|;
    assert tail == s[start..stop];
    if d < stop {
      assert tail == s[start..d] + s[d..stop];
      AtoiStopsAt(s[start..d], s[d..stop]);
    }
    assert s[start..] == s[start..d] + s[d..];
    AtoiStopsAt(s[start..d], s[d..]);
  }

  /** The first half of `AtoiOfSubstrToDot`, on its own. */
  lemma AtoiOfSubstrBeforeDot(s: string, start: nat, d: nat)
    requires start <= d < |s| && s[d] == '.'
    ensures Atoi(Substr(s, start, At(d))) == Atoi(s[start..d])
  {
    AtoiOfSubstrToDot(s, start, d);
  }

  /** `find` from `from` stops at the first `c` it reaches. */
  lemma FindFromIs(s: string, c: char, from: nat, i: nat)
    requires from <= i < |s| && s[i] == c
    requires forall j :: from <= j < i ==> s[j] != c
    ensures FindFrom(s, c, from) == At(i)
  {
    FindFromFirst(s, c, from);
  }

  /** `find` succeeds exactly when the character occurs at or after the start index. */
  lemma {:induction false} FindFromCount(s: string, c: char, from: nat)
    requires from <= |s|
    ensures FindFrom(s, c, from).At? <==> Count(s[from..], c) > 0
    ensures FindFrom(s, c, from).At? ==>
      Count(s[from..], c) == 1 + Count(s[FindFrom(s, c, from).index + 1..], c)
    decreases |s| - from
  {
    if from < |s| {
      assert s[from..][1..] == s[from + 1..];
      FindFromCount(s, c, from + 1);
    }
  }

  /** Past the `c` that `find` returned, one occurrence fewer remains. */
  lemma FindFromCountAt(s: string, c: char, from: nat, i: nat)
    requires from <= |s| && FindFrom(s, c, from) == At(i)
    ensures Count(s[from..], c) == 1 + Count(s[i + 1..], c)
  {
    FindFromCount(s, c, from);
  }

  /** `FindFromIs` for a search that starts just after index `d`. */
  lemma FindAfterIs(s: string, c: char, d: nat, i: nat)
    requires d < i < |s| && s[i] == c
    requires forall j :: d < j < i ==> s[j] != c
    ensures FindFrom(s, c, d + 1) == At(i)
  {
    forall from | from == d + 1
      ensures FindFrom(s, c, from) == At(i)
    {
      FindFromIs(s, c, from, i);
    }
  }

  /**
   * `FindFromCount` and `FindFromCountAt` for a search that starts just after index
   * `d`, stated so that callers pass `d` itself rather than `d + 1`.
   */
  lemma FindAfterCount(s: string, c: char, d: nat)
    requires d < |s|
    ensures FindFrom(s, c, d + 1).At? <==> Count(s[d + 1..], c) > 0
  {
    forall from | from == d + 1
      ensures FindFrom(s, c, from).At? <==> Count(s[from..], c) > 0
    {
      FindFromCount(s, c, from);
    }
  }

  lemma FindAfterCountAt(s: string, c: char, d: nat, i: nat)
    requires d < |s| && FindFrom(s, c, d + 1) == At(i)
    ensures Count(s[d + 1..], c) == 1 + Count(s[i + 1..], c)
  {
    forall from | from == d + 1
      ensures Count(s[from..], c) == 1 + Count(s[i + 1..], c)
    {
      FindFromCountAt(s, c, from, i);
    }
  }

  lemma {:induction false} CountAbsent(s: string, c: char)
    requires c !in s
    ensures Count(s, c) == 0
  {
    if s != [] {
      assert c !in s[1..];
      CountAbsent(s[1..], c);
    }
  }
}

=== FILE: regionworld.dfy ===
/**
 * `RegionFileWorld`: the index of a world's region files by region coordinate.
 * Region files are named "r.<x>.<z>.mca"; the directory listing is given as the
 * sequence of names `readdir` returns (or none, when the directory cannot be
 * opened), and each region object is represented by the names of the files
 * loaded into it.
 */
module RegionWorld {
  import opened Wrappers
  import opened CStrings

  datatype RegionCoord = RegionCoord(x: int, z: int)

  /** `SDL_Point`. */
  datatype Point = Point(x: int, y: int)

  /** The `std::pair<bool, RegionCoord>` `parseFilename` returns. */
  datatype ParsedName = ParsedName(valid: bool, coord: RegionCoord)

  /**
   * `parseFilename`: find three dots, each search starting after the previous dot
   * (after `npos + 1`, which wraps to 0, when the previous search failed); when all
   * three exist, `x` and `z` are `atoi` of `substr(dot + 1, nextDot)`, whose second
   * argument is an index passed as a length.
   */
  function ParseFilename(name: string): ParsedName {
    var dots := DotSearches(name, 0, 3);
    ParseAtDots(name, dots[0], dots[1], dots[2])
  }

  /** `k` chained searches for '.', the first from `from`, each later one from just after the previous result. */
  function DotSearches(name: string, from: nat, k: nat): (ps: seq<Pos>)
    ensures |ps| == k
    ensures forall i :: 0 <= i < k && ps[i].At? ==> ps[i].index < |name| && name[ps[i].index] == '.'
    decreases k
  {
    if k == 0 then []
    else
      var p := FindFrom(name, '.', from);
      [p] + DotSearches(name, Next(p), k - 1)
  }

  /** The result of `parseFilename` once its three searches have returned. */
  function ParseAtDots(name: string, dot0: Pos, dot1: Pos, dot2: Pos): ParsedName
    requires dot0.At? ==> dot0.index < |name|
    requires dot1.At? ==> dot1.index < |name|
  {
    if dot0.At? && dot1.At? && dot2.At? then
      ParsedName(true, CoordsBetween(name, dot0.index, dot1.index, dot2.index))
    else ParsedName(false, RegionCoord(0, 0))
  }

  /** The coordinates read after the first and second dots, at `d0` and `d1`. */
  function CoordsBetween(name: string, d0: nat, d1: nat, d2: nat): RegionCoord
    requires d0 < |name| && d1 < |name|
  {
    RegionCoord(Atoi(Substr(name, d0 + 1, At(d1))), Atoi(Substr(name, d1 + 1, At(d2))))
  }

  /** The region map: each coordinate with the names of the files loaded into its region, in order. */
  type RegionMap = map<RegionCoord, seq<string>>

  datatype WorldError = RegionDirectoryNotFound

  /**
   * One directory entry: `regions[coords].load(...)` when the name parses, nothing
   * otherwise. The map building is stated over any name parser `parse`; the program
   * uses `ParseFilename`.
   */
  function AddRegionFile(parse: string -> ParsedName, m: RegionMap, name: string): RegionMap {
    var parsed := parse(name);
    if parsed.valid then
      var c := parsed.coord;
      m[c := (if c in m then m[c] else []) + [name]]
    else m
  }

  /** The constructor's loop over the directory listing. */
  function IndexRegions(parse: string -> ParsedName, names: seq<string>): RegionMap {
    if names == [] then map[]
    else AddRegionFile(parse, IndexRegions(parse, names[..|names| - 1]), names[|names| - 1])
  }

  function BuildRegionMap(names: seq<string>): RegionMap {
    IndexRegions(ParseFilename, names)
  }

  /** `RegionFileWorld(rootpath)`: an unreadable region directory is the failure `error` reports. */
  function OpenWorld(listing: Option<seq<string>>): (r: Result<RegionMap, WorldError>)
    ensures listing.None? <==> r.Failure?
    ensures r.Success? ==> forall c :: c in r.value <==> NamedIn(ParseFilename, listing.value, c)
    ensures r.Success? ==> forall c :: c in r.value ==> r.value[c] == NamesAt(ParseFilename, listing.value, c)
  {
    match listing
    case None => Failure(RegionDirectoryNotFound)
    case Some(names) =>
      var m := BuildRegionMap(names);
      assert forall c :: c in m <==> NamedIn(ParseFilename, names, c) by {
        forall c ensures c in m <==> NamedIn(ParseFilename, names, c) {
          RegionMapKeys(ParseFilename, names, c);
        }
      }
      assert forall c :: c in m ==> m[c] == NamesAt(ParseFilename, names, c) by {
        forall c | c in m ensures m[c] == NamesAt(ParseFilename, names, c) {
          RegionMapFiles(ParseFilename, names, c);
        }
      }
      Success(m)
  }

  // ---------------------------------------------------------------- size

  /** The accumulators of `getSize`. */
  datatype Bounds = Bounds(minX: int, minZ: int, maxX: int, maxZ: int)

  /** Blocks along one side of a region: 32 chunks of 16 blocks. */
  const RegionBlocks := 32 * 16

  function Min(a: int, b: int): int {
    if a < b then a else b
  }

  function Max(a: int, b: int): int {
    if a < b then b else a
  }

  /** One step of the `getSize` loop. */
  function Widen(b: Bounds, c: RegionCoord): (r: Bounds)
    ensures r.minX <= b.minX && r.minX <= c.x && (r.minX == b.minX || r.minX == c.x)
    ensures r.minZ <= b.minZ && r.minZ <= c.z && (r.minZ == b.minZ || r.minZ == c.z)
    ensures r.maxX >= b.maxX && r.maxX >= c.x && (r.maxX == b.maxX || r.maxX == c.x)
    ensures r.maxZ >= b.maxZ && r.maxZ >= c.z && (r.maxZ == b.maxZ || r.maxZ == c.z)
  {
    Bounds(Min(b.minX, c.x), Min(b.minZ, c.z), Max(b.maxX, c.x), Max(b.maxZ, c.z))
  }

  /**
   * The accumulators after scanning `s` from 0: each minimum is the least of 0 and
   * the coordinates, each maximum the greatest.
   */
  predicate IsExtentOf(b: Bounds, s: set<RegionCoord>) {
    && b.minX <= 0 <= b.maxX && b.minZ <= 0 <= b.maxZ
    && (forall c :: c in s ==> b.minX <= c.x <= b.maxX && b.minZ <= c.z <= b.maxZ)
    && (b.minX == 0 || exists c :: c in s && c.x == b.minX)
    && (b.maxX == 0 || exists c :: c in s && c.x == b.maxX)
    && (b.minZ == 0 || exists c :: c in s && c.z == b.minZ)
    && (b.maxZ == 0 || exists c :: c in s && c.z == b.maxZ)
  }

  /**
   * The value `getSize` returns: `32*16*(max+min)`, a sum and not a span. It is the
   * span of the bounds exactly when the minimum is 0, and never more than the span
   * when the minimum is at most 0, as the loop leaves it.
   */
  function SizeOf(b: Bounds): (r: Point)
    ensures r.x == RegionBlocks * (b.maxX - b.minX) <==> b.minX == 0
    ensures r.y == RegionBlocks * (b.maxZ - b.minZ) <==> b.minZ == 0
    ensures b.minX <= 0 ==> r.x <= RegionBlocks * (b.maxX - b.minX)
    ensures b.minZ <= 0 ==> r.y <= RegionBlocks * (b.maxZ - b.minZ)
  {
    Point(RegionBlocks * (b.maxX + b.minX), RegionBlocks * (b.maxZ + b.minZ))
  }

  /** The `getSize` loop over coordinates taken in the order given. */
  function Extent(cs: seq<RegionCoord>): (b: Bounds)
    ensures IsExtentOf(b, set c | c in cs)
  {
    if cs == [] then Bounds(0, 0, 0, 0)
    else
      var init := cs[..|cs| - 1];
      var prev := Extent(init);
      var seen := set c | c in init;
      assert (set c | c in cs) == seen + {cs[|cs| - 1]};
      WidenExtent(prev, seen, cs[|cs| - 1]);
      Widen(prev, cs[|cs| - 1])
  }

  /**
   * `getSize`. The map is visited in whatever order the loop picks: the result is
   * the size of the one extent of its coordinates.
   */
  method GetSize(regions: RegionMap) returns (size: Point)
    ensures exists b :: IsExtentOf(b, regions.Keys) && size == SizeOf(b)
  {
    var b := Bounds(0, 0, 0, 0);
    var rest := regions.Keys;
    while rest != {}
      invariant rest <= regions.Keys
      invariant IsExtentOf(b, regions.Keys - rest)
      decreases rest
    {
      var c :| c in rest;
      WidenExtent(b, regions.Keys - rest, c);
      assert regions.Keys - (rest - {c}) == (regions.Keys - rest) + {c};
      b := Widen(b, c);
      rest := rest - {c};
    }
    size := SizeOf(b);
  }

  // ---------------------------------------------------------------- lemmas

  lemma WidenExtent(b: Bounds, s: set<RegionCoord>, c: RegionCoord)
    requires IsExtentOf(b, s)
    ensures IsExtentOf(Widen(b, c), s + {c})
  {
  }

  /** A set of coordinates has one extent: the accumulators do not depend on visiting order. */
  lemma ExtentIsUnique(b1: Bounds, b2: Bounds, s: set<RegionCoord>)
    requires IsExtentOf(b1, s) && IsExtentOf(b2, s)
    ensures b1 == b2
  {
  }

  lemma ExtentOrderIndependent(cs1: seq<RegionCoord>, cs2: seq<RegionCoord>)
    requires forall c :: c in cs1 <==> c in cs2
    ensures Extent(cs1) == Extent(cs2)
  {
    var s := set c | c in cs1;
    assert s == (set c | c in cs2);
    ExtentIsUnique(Extent(cs1), Extent(cs2), s);
  }

  /** No regions: size (0, 0). */
  lemma SizeOfNoRegions(b: Bounds)
    requires IsExtentOf(b, {})
    ensures SizeOf(b) == Point(0, 0)
  {
  }

  /** Regions (0,0) and (2,3): size (1024, 1536). */
  lemma SizeOfTwoRegions(b: Bounds)
    requires IsExtentOf(b, {RegionCoord(0, 0), RegionCoord(2, 3)})
    ensures SizeOf(b) == Point(1024, 1536)
  {
    ExtentIsUnique(b, Bounds(0, 0, 2, 3), {RegionCoord(0, 0), RegionCoord(2, 3)});
  }

  /** Regions (-1,0) and (1,0): width 0, since the minimum and maximum cancel. */
  lemma SizeOfSymmetricRegions(b: Bounds)
    requires IsExtentOf(b, {RegionCoord(-1, 0), RegionCoord(1, 0)})
    ensures SizeOf(b).x == 0
  {
    ExtentIsUnique(b, Bounds(-1, 0, 1, 0), {RegionCoord(-1, 0), RegionCoord(1, 0)});
  }

  /** The first dot of `name` at or after `from` is at `d`. */
  predicate NextDotAt(name: string, from: nat, d: nat) {
    from <= d < |name| && name[d] == '.' && forall j :: from <= j < d ==> name[j] != '.'
  }

  /** With three dots, `x` and `z` are `atoi` of the text between the first and second, and the second and third. */
  lemma ParseFilenameValid(name: string, d0: nat, d1: nat, d2: nat)
    requires NextDotAt(name, 0, d0) && NextDotAt(name, d0 + 1, d1) && NextDotAt(name, d1 + 1, d2)
    ensures ParseFilename(name)
      == ParsedName(true, RegionCoord(Atoi(name[d0 + 1..d1]), Atoi(name[d1 + 1..d2])))
  {
    FindFromIs(name, '.', 0, d0);
    FindAfterIs(name, '.', d0, d1);
    FindAfterIs(name, '.', d1, d2);
    UnfoldParseFilename(name, d0, d1, d2);
    CoordsBetweenDots(name, d0, d1, d2);
  }

  /** Once the first two searches have found dots at `d0` and `d1`, the third starts at `d1 + 1`. */
  lemma SearchesAfterTwo(name: string, d0: nat, d1: nat)
    requires FindFrom(name, '.', 0) == At(d0)
    requires FindFrom(name, '.', d0 + 1) == At(d1)
    ensures DotSearches(name, 0, 3) == [At(d0), At(d1), FindFrom(name, '.', d1 + 1)]
  {
    var from1, from2 := d0 + 1, d1 + 1;
    var third := DotSearches(name, from2, 1);
    assert third == [FindFrom(name, '.', from2)];
    assert DotSearches(name, from1, 2) == [At(d1)] + third;
    assert DotSearches(name, 0, 3) == [At(d0)] + DotSearches(name, from1, 2);
  }

  lemma UnfoldParseFilename(name: string, d0: nat, d1: nat, d2: nat)
    requires FindFrom(name, '.', 0) == At(d0)
    requires FindFrom(name, '.', d0 + 1) == At(d1)
    requires FindFrom(name, '.', d1 + 1) == At(d2)
    ensures ParseFilename(name) == ParsedName(true, CoordsBetween(name, d0, d1, d2))
  {
    SearchesAfterTwo(name, d0, d1);
  }

  lemma CoordsBetweenDots(name: string, d0: nat, d1: nat, d2: nat)
    requires d0 < d1 < d2 < |name| && name[d1] == '.' && name[d2] == '.'
    ensures CoordsBetween(name, d0, d1, d2) == RegionCoord(Atoi(name[d0 + 1..d1]), Atoi(name[d1 + 1..d2]))
  {
    FieldBeforeDot(name, d0, d1);
    FieldBeforeDot(name, d1, d2);
  }

  /** The field after the dot at `d` and up to the dot at `e`. */
  lemma FieldBeforeDot(name: string, d: nat, e: nat)
    requires d < e < |name| && name[e] == '.'
    ensures Atoi(Substr(name, d + 1, At(e))) == Atoi(name[d + 1..e])
  {
    forall start | start == d + 1
      ensures Atoi(Substr(name, start, At(e))) == Atoi(name[start..e])
    {
      AtoiOfSubstrBeforeDot(name, start, e);
    }
  }

  /** A name is valid exactly when it holds at least three dots; an invalid one reads as (0, 0). */
  lemma ParseFilenameValidity(name: string)
    ensures ParseFilename(name).valid <==> Count(name, '.') >= 3
    ensures !ParseFilename(name).valid ==> ParseFilename(name).coord == RegionCoord(0, 0)
  {
    var dot0 := FindFrom(name, '.', 0);
    if dot0.At? {
      ValidityAfterOne(name, dot0.index);
    } else {
      assert DotSearches(name, 0, 3)[0] == dot0;
      assert name[0..] == name;
      FindFromCount(name, '.', 0);
    }
  }

  /** One dot found at `d0`: the rest depends on the second search. */
  lemma ValidityAfterOne(name: string, d0: nat)
    requires FindFrom(name, '.', 0) == At(d0)
    ensures ParseFilename(name).valid <==> Count(name, '.') >= 3
  {
    var dot1 := FindFrom(name, '.', d0 + 1);
    if dot1.At? {
      ValidAfterTwo(name, d0, dot1.index);
      CountAfterTwo(name, d0, dot1.index);
    } else {
      OnlyOneDot(name, d0);
    }
  }

  /** Two dots found: the name is valid exactly when the third search succeeds. */
  lemma ValidAfterTwo(name: string, d0: nat, d1: nat)
    requires FindFrom(name, '.', 0) == At(d0) && FindFrom(name, '.', d0 + 1) == At(d1)
    ensures ParseFilename(name).valid <==> FindFrom(name, '.', d1 + 1).At?
  {
    SearchesAfterTwo(name, d0, d1);
  }

  /** Only one dot: the second search fails, and so does the parse. */
  lemma OnlyOneDot(name: string, d0: nat)
    requires FindFrom(name, '.', 0) == At(d0) && FindFrom(name, '.', d0 + 1).NotFound?
    ensures !ParseFilename(name).valid && Count(name, '.') == 1
  {
    assert DotSearches(name, 0, 3)[1] == DotSearches(name, d0 + 1, 2)[0];
    assert name[0..] == name;
    FindFromCountAt(name, '.', 0, d0);
    FindAfterCount(name, '.', d0);
  }

  /** Two dots found: a third follows exactly when the name holds at least three. */
  lemma CountAfterTwo(name: string, d0: nat, d1: nat)
    requires FindFrom(name, '.', 0) == At(d0) && FindFrom(name, '.', d0 + 1) == At(d1)
    ensures FindFrom(name, '.', d1 + 1).At? <==> Count(name, '.') >= 3
  {
    var n1 := Count(name[d0 + 1..], '.');
    var n2 := Count(name[d1 + 1..], '.');
    assert Count(name, '.') == 1 + n1 by {
      assert name[0..] == name;
      FindFromCountAt(name, '.', 0, d0);
    }
    assert n1 == 1 + n2 by {
      FindAfterCountAt(name, '.', d0, d1);
    }
    assert FindFrom(name, '.', d1 + 1).At? <==> n2 > 0 by {
      FindAfterCount(name, '.', d1);
    }
  }

  /** The name Minecraft gives the region file of `c`. */
  function RegionFileName(c: RegionCoord): string {
    "r." + IntToString(c.x) + "." + IntToString(c.z) + ".mca"
  }

  lemma NoDotInIntToString(i: int)
    ensures '.' !in IntToString(i)
  {
    if i < 0 {
      assert forall j :: 1 <= j < |IntToString(i)| ==> IntToString(i)[j] == NatToString(-i)[j - 1];
    }
  }

  /** Parsing a region file's own name gives back its coordinates. */
  lemma ParseRegionFileName(c: RegionCoord)
    ensures ParseFilename(RegionFileName(c)) == ParsedName(true, c)
  {
    var xs, zs := IntToString(c.x), IntToString(c.z);
    NoDotInIntToString(c.x);
    NoDotInIntToString(c.z);
    ParseDottedFields(xs, zs);
    AtoiOfIntToString(c.x, []);
    assert xs + [] == xs;
    AtoiOfIntToString(c.z, []);
    assert zs + [] == zs;
  }

  /** Two dot-free fields between "r." and ".mca" are read back as `atoi` of each. */
  lemma ParseDottedFields(xs: string, zs: string)
    requires '.' !in xs && '.' !in zs
    ensures ParseFilename("r." + xs + "." + zs + ".mca") == ParsedName(true, RegionCoord(Atoi(xs), Atoi(zs)))
  {
    var name := "r." + xs + "." + zs + ".mca";
    var d1 := 2 + |xs|;
    var d2 := d1 + 1 + |zs|;
    DottedFieldsDots(xs, zs);
    ParseFilenameValid(name, 1, d1, d2);
  }

  lemma DottedFieldsDots(xs: string, zs: string)
    requires '.' !in xs && '.' !in zs
    ensures var name := "r." + xs + "." + zs + ".mca";
      var d1 := 2 + |xs|;
      var d2 := d1 + 1 + |zs|;
      NextDotAt(name, 0, 1) && NextDotAt(name, 2, d1) && NextDotAt(name, d1 + 1, d2)
      && name[2..d1] == xs && name[d1 + 1..d2] == zs
  {
    var name := "r." + xs + "." + zs + ".mca";
    var d1 := 2 + |xs|;
    var d2 := d1 + 1 + |zs|;
    assert name[2..d1] == xs;
    assert name[d1 + 1..d2] == zs;
    assert NextDotAt(name, 0, 1);
    assert NextDotAt(name, 2, d1) by {
      forall j | 2 <= j < d1 ensures name[j] != '.' {
        assert name[j] == xs[j - 2];
      }
    }
    assert NextDotAt(name, d1 + 1, d2) by {
      forall j | d1 + 1 <= j < d2 ensures name[j] != '.' {
        assert name[j] == zs[j - d1 - 1];
      }
    }
  }

  lemma ParseFilenameExample()
    ensures ParseFilename("r.1.0.mca") == ParsedName(true, RegionCoord(1, 0))
  {
    assert RegionFileName(RegionCoord(1, 0)) == "r.1.0.mca";
    ParseRegionFileName(RegionCoord(1, 0));
  }

  lemma ParseFilenameNegativeExample()
    ensures ParseFilename("r.3.-2.mca") == ParsedName(true, RegionCoord(3, -2))
  {
    assert NatToString(2) == "2" && NatToString(3) == "3";
    assert RegionFileName(RegionCoord(3, -2)) == "r.3.-2.mca";
    ParseRegionFileName(RegionCoord(3, -2));
  }

  /** A name without dots, such as "README", is skipped. */
  lemma ParseFilenameNoDots(name: string)
    requires '.' !in name
    ensures ParseFilename(name) == ParsedName(false, RegionCoord(0, 0))
  {
    ParseFilenameValidity(name);
    CountAbsent(name, '.');
  }

  /** One directory entry adds its coordinate to the keys when, and only when, its name parses. */
  lemma AddRegionFileKeys(parse: string -> ParsedName, m: RegionMap, name: string, c: RegionCoord)
    ensures c in AddRegionFile(parse, m, name) <==> c in m || parse(name) == ParsedName(true, c)
  {
  }

  /** Some name of the listing parses to `c`. */
  predicate NamedIn(parse: string -> ParsedName, names: seq<string>, c: RegionCoord) {
    exists i :: 0 <= i < |names| && parse(names[i]) == ParsedName(true, c)
  }

  /** The map's keys are exactly the coordinates of the names that parse; other names are skipped. */
  lemma {:induction false} RegionMapKeys(parse: string -> ParsedName, names: seq<string>, c: RegionCoord)
    ensures c in IndexRegions(parse, names) <==> NamedIn(parse, names, c)
  {
    if names != [] {
      var n := |names| - 1;
      var init := names[..n];
      RegionMapKeys(parse, init, c);
      AddRegionFileKeys(parse, IndexRegions(parse, init), names[n], c);
      if NamedIn(parse, init, c) {
        var i :| 0 <= i < |init| && parse(init[i]) == ParsedName(true, c);
        assert names[i] == init[i];
      }
      if NamedIn(parse, names, c) {
        var i :| 0 <= i < |names| && parse(names[i]) == ParsedName(true, c);
        if i < n {
          assert init[i] == names[i];
        }
      }
    }
  }

  /** The names among `names` that parse to `c`, in order. */
  function NamesAt(parse: string -> ParsedName, names: seq<string>, c: RegionCoord): seq<string> {
    if names == [] then []
    else
      var rest := NamesAt(parse, names[1..], c);
      if parse(names[0]) == ParsedName(true, c) then [names[0]] + rest else rest
  }

  lemma {:induction false} NamesAtSnoc(parse: string -> ParsedName, names: seq<string>, name: string, c: RegionCoord)
    ensures NamesAt(parse, names + [name], c)
      == NamesAt(parse, names, c) + (if parse(name) == ParsedName(true, c) then [name] else [])
  {
    if names != [] {
      assert (names + [name])[1..] == names[1..] + [name];
      NamesAtSnoc(parse, names[1..], name, c);
    } else {
      assert [name][1..] == [];
    }
  }

  /** Each region was loaded from exactly the files naming its coordinate, in directory order. */
  lemma {:induction false} RegionMapFiles(parse: string -> ParsedName, names: seq<string>, c: RegionCoord)
    requires c in IndexRegions(parse, names)
    ensures IndexRegions(parse, names)[c] == NamesAt(parse, names, c)
  {
    var n := |names| - 1;
    var init := names[..n];
    assert names == init + [names[n]];
    NamesAtSnoc(parse, init, names[n], c);
    if c in IndexRegions(parse, init) {
      RegionMapFiles(parse, init, c);
    } else {
      RegionMapKeys(parse, init, c);
      NamesAtEmpty(parse, init, c);
    }
  }

  lemma {:induction false} NamesAtEmpty(parse: string -> ParsedName, names: seq<string>, c: RegionCoord)
    requires !NamedIn(parse, names, c)
    ensures NamesAt(parse, names, c) == []
  {
    if names != [] {
      NamesAtEmpty(parse, names[1..], c);
    }
  }
}

=== FILE: wrappers.dfy ===
/**
 * `Option` for values that may be absent (a JSON member, a map lookup), and
 * `Result` for the operations that report an error instead of producing a value.
 */
module Wrappers {

  datatype Option<+T> = None | Some(value: T)

  /** The outcome of an operation that can fail with an error of type `E`. */
  datatype Result<+R, +E> = Success(value: R) | Failure(error: E)
}
